=== FILE: README.md ===
# industrialIOT device provisioning and registry, in Dafny

This project models the sequential decision logic of the industrialIOT system:

- **CA server.** The `sign_csr_handler` and `create_serial_number` functions turn a device's signing request into an X.509 certificate and record it in etcd under `devices/certificates/{cn}`.
- **Registration server.** It reads the device identity from the client certificate of a TLS session and turns away the `unknown-device…` sentinels. It then answers newline-delimited JSON commands (`REGISTER`, `HEARTBEAT`) against the etcd records of that one device.
  - The server binary has its own handlers, which keep the record at `devices/{id}`.
  - The library handlers (`handlers.rs`) are modelled as a second, separate variant. They are gated on the issued certificate and keep the record at `devices/info/{id}`.
- **Device client.** It sends one `REGISTER` and then heartbeats, in 4-byte big-endian length-prefixed frames carrying bincode payloads. Before that it decides whether to reuse the identity on disk or to provision a new one from the CA.

Every piece is a pure function:

- etcd is a `map<string, Value>`.
- The outcome of each store call (`Ok`/`Err`) is a parameter.
- The clock (`Utc::now`, `days_from_now`) is a `nat` count of seconds.
- Randomness (`rand::random::<u32>`, `BigNum::rand`) is a parameter.

Foreign parsers are parameters too:

- OpenSSL's CSR PEM parser;
- `serde_json::from_str::<CommandRequest>`;
- the client's bincode reply decoder.

Some serialisations are written out concretely, each with a decoder it is proved against:

- the wire encodings the core controls: frames, the bincode command payload, and the serde_json text of a response;
- the DER content octets of a serial number.

Modules follow the program's structure:

| module | file | models |
|---|---|---|
| `Records` | records.dfy | the record and response types, the etcd key layout, "only this key changes" |
| `Handlers` | handlers.dfy | library `handle_registration`/`handle_heartbeat` |
| `Server` | server.dfy | the binary's own `handle_registration`/`handle_heartbeat` |
| `Session` | session.dfy | identity extraction, the sentinel gate, `handle_commands` |
| `Json` | json.dfy | the serde_json text of a `CommandResponse` and the `"\n"` line framing |
| `Ca` | ca.dfy | `create_serial_number`, certificate fields, `sign_csr_handler` |
| `Framing` | framing.dfy | `write_u32`/`read_u32` + `read_exact` frames |
| `Device` | device.dfy | bincode command payloads, `run_device_workflow`, `get_or_create_identity` |
| `Provisioning` | provisioning.dfy | how a provisioned device meets the CA, the gate and the library handler |
| `Bytes`, `Text`, `X509`, `Optional` | | byte encodings, trimming and decimals, names and certificates, `Option` |

Three properties of the code shape the model:

- **Registration is read-then-put.** Both registration handlers read the key and then put it, without a transaction or a version check. So `Server.Register` and `Handlers.Register` are modelled as a read followed by a put, and nothing is claimed about concurrent registrations.
- **The two ends use different wire formats.** The server binary reads newline-terminated JSON lines and answers with one JSON line each (`Session`, `Json`). The client writes u32-prefixed bincode frames and expects frames back (`Framing`, `Device`). Neither end caps the length of a frame:
  - the client's writer casts the payload length to u32 (`Framing.OversizedFrameSplits`);
  - the client's reader allocates whatever length the header announces (`Framing.AnyLengthAccepted`).
  The two formats do not interoperate, so each end is modelled against its own format, and the model does not connect them.
- **Re-registration depends on the handler.**
  - The binary answers `Dispositivo già registrato.` without writing (`Server.RegisterTwice`).
  - The library handler answers a re-registration with a heartbeat (`Handlers.RegisterTwice`).
  - If the library handler's read of the info record fails, it overwrites `first_seen` (`Handlers.ReadErrorResetsFirstSeen`).

## Model

| member | source | states |
|---|---|---|
| Records.EncodeInfo | registration-server/src/types.rs:15-21 | a `DeviceInfo` stored as JSON deserialises back to the same record |
| Records.DecodeInfoInverse | registration-server/src/types.rs:15-21 | a stored value that deserialises is the serialisation of the record it yields |
| Records.KeysSeparate | registration-server/src/handlers.rs:8-9 | distinct devices have distinct keys in each layout, and no `devices/info/` key is ever a `devices/certificates/` key |
| Records.DeviceKeyAliases | registration-server/src/main.rs:214 | the binary's `devices/{id}` layout collides with the library's keys for ids beginning `info/` or `certificates/` |
| Handlers.Register | registration-server/src/handlers.rs:7-48 | only `devices/info/{id}` can change; a certificate read error gives "Errore interno." with no write; "Certificato non riconosciuto o non autorizzato." exactly when the certificate read succeeds and finds nothing; an existing record is answered exactly as a heartbeat; otherwise the fresh record (id, "registered", now, now) is written with "Registrazione completata con successo.", or "Errore interno." if the put fails; any error leaves the store unchanged |
| Handlers.Heartbeat | registration-server/src/handlers.rs:51-86 | only `devices/info/{id}` can change; "ok" exactly when both store calls succeed and a deserialisable record exists, in which case the record becomes (same id, "active", same first_seen, now) and the answer is "Heartbeat ricevuto."; a read error, a missing record, a corrupt record and a failed put of a good record give "Errore interno.", "Dispositivo non registrato.", "Record dispositivo corrotto." and "Errore interno." and leave the store unchanged |
| Handlers.LifecyclePreserved | registration-server/src/handlers.rs:31-38 | both handlers keep a device's record its own, "registered" or "active", with first_seen ≤ last_seen ≤ now as the clock advances |
| Handlers.RegisterTwice | registration-server/src/handlers.rs:24-28 | a second registration is answered "Heartbeat ricevuto." and keeps first_seen from the first call |
| Handlers.ReadErrorResetsFirstSeen | registration-server/src/handlers.rs:24-41 | a failed read of an existing record is taken as absence: the record is rewritten and first_seen is lost |
| Handlers.HeartbeatRequiresRegistration | registration-server/src/handlers.rs:82-85 | a heartbeat with no record is an error and creates nothing |
| Server.Register | registration-server/src/main.rs:213-244 | only `devices/{id}` can change; read error gives "Errore interno del server."; an existing key gives ok "Dispositivo già registrato." with no write; the store changes exactly when both calls succeed on an absent key, and then holds (id, "registered", now, now) |
| Server.Heartbeat | registration-server/src/main.rs:247-274 | only `devices/{id}` can change; ok "Heartbeat ricevuto." exactly when both calls succeed on a present record, which becomes (same id, "active", same first_seen, now); a read error gives "Errore interno.", absence gives "Dispositivo non registrato.", and a failed put gives "Errore interno." with the store unchanged |
| Server.RegisterTwice | registration-server/src/main.rs:225-237 | registering twice writes once; the second answer is "Dispositivo già registrato." and first_seen stays that of the first call |
| Session.PeerIdentity | registration-server/src/main.rs:148-154 | no certificate, an unparsable first certificate and a first certificate without CN give the three sentinels; a first CN that is text is the identity, and one that is not gives no identity (the task panics); conversely an identity without the sentinel prefix is the first CN, as text, of the first certificate |
| X509.FirstCommonName | registration-server/src/main.rs:150 | the value of the first common-name attribute of a name, with every earlier attribute not a CN; none exactly when the name has no CN |
| Session.SentinelsRefused | registration-server/src/main.rs:158-161 | the three sentinels, and a genuine CN that starts with "unknown-device", are refused |
| Session.Admitted | registration-server/src/main.rs:158 | an identity is admitted exactly when "unknown-device" is not a prefix of it |
| Session.Classify | registration-server/src/main.rs:183-193 | "REGISTER" and "HEARTBEAT" requests, and only they, select the two handlers; a JSON error, and only it, is malformed |
| Session.Dispatch | registration-server/src/main.rs:183-194 | each command reaches its handler with the session identity; other commands give "Comando non supportato" and invalid JSON "Comando JSON non valido", with no write; only `devices/{id}` can change |
| Session.Answer | registration-server/src/main.rs:181-194 | the reply to a received line is one of the known responses, changes at most `devices/{id}` and keeps its record deserialisable |
| Session.AnswerRoutes | registration-server/src/main.rs:181-194 | the received line is trimmed and decoded; no request gives "Comando JSON non valido", REGISTER and HEARTBEAT run their handlers for the session identity, and any other command gives "Comando non supportato"; the two errors write nothing |
| Session.Serve | registration-server/src/main.rs:173-208 | the loop changes at most the session device's key, keeps its record deserialisable, sends at most one response per turn, only known responses, and only for turns that read a line and delivered their answer; a read error or a 0-byte read ends it with nothing sent and nothing written, and an undelivered answer ends it after that answer's store change |
| Session.Connect | registration-server/src/main.rs:147-163 | a session whose identity is a sentinel, or whose CN is not text, sends nothing and writes nothing; an admitted identity is served by the command loop on behalf of that identity; anything written belongs to the admitted identity |
| Session.GateServesCommonName | registration-server/src/main.rs:147-163 | a first peer certificate with a textual CN is served as that CN exactly when the CN lacks the "unknown-device" prefix, and otherwise the session is closed with no response and no write |
| Session.OneResponsePerLine | registration-server/src/main.rs:180-201 | when every read yields a line and every response is written, there is exactly one response per line, and the first answers the first line |
| Session.ServeStep | registration-server/src/main.rs:173-201 | a live line is answered against the store the session has so far, and the following lines are served from the store that answer left |
| Session.SessionRegisterTwice | registration-server/src/main.rs:180-201 | two REGISTER lines on one connection of a new device are answered "Registrazione completata con successo." then "Dispositivo già registrato.", and the record keeps the first line's time |
| Session.SessionRegisterThenHeartbeat | registration-server/src/main.rs:180-201 | REGISTER then HEARTBEAT on one connection of a new device are answered "Registrazione completata con successo." then "Heartbeat ricevuto.", and the record becomes (id, "active", first time, second time) |
| Session.ServeSequential | registration-server/src/main.rs:173-208 | lines are served strictly in order: serving two batches is serving the first, then the second from the store the first left |
| Session.ErrorsContinue | registration-server/src/main.rs:186-193 | an unsupported or malformed command is answered with its error and the loop carries on with the next line |
| Session.UndeliveredRegistrationStands | registration-server/src/main.rs:195-199 | a response write failure ends the session, but the registration already written stays |
| Session.SessionsIsolated | registration-server/src/main.rs:184-185 | a session never alters or creates another device's record, whatever its lines say |
| Json.EscapeRoundTrip | registration-server/src/main.rs:195 | serde_json's string escaping, read back by a JSON string reader, yields the original text and the rest of the input |
| Json.EncodeResponse | registration-server/src/main.rs:195 | the JSON text of a response holds no newline, so with the appended "\n" each response is exactly one line |
| Json.ResponseRoundTrip | registration-server/src/main.rs:195 | the JSON text of a response decodes to that response |
| Json.WireSplitsIntoResponses | registration-server/src/main.rs:195-196 | responses written as JSON each followed by "\n" split back into one line per response, each decoding to its response |
| Text.TrimIgnoresTrailing | registration-server/src/main.rs:181 | the line terminator and any other trailing whitespace do not change the trimmed command |
| Text.TrimCharacterised | registration-server/src/main.rs:181 | the trimmed line is the input without its leading and trailing whitespace, with no whitespace at either end |
| Text.Trim | registration-server/src/main.rs:181 | the trimmed line is no longer than the line and neither starts nor ends with whitespace; the line is kept as it is exactly when it is empty or neither starts nor ends with whitespace |
| Ca.CreateSerialNumber | ca-server/src/main.rs:60-64 | the serial is below 2^159 and any 159-bit draw is used unchanged |
| Ca.SerialMayBeZero | ca-server/src/main.rs:62 | the zero serial can be drawn, which is not a positive integer as section 4.1.2.2 of RFC 5280 requires |
| Ca.IntegerOctets | ca-server/src/main.rs:92 | the DER content octets of a serial are its minimal two's-complement big-endian form |
| Ca.SerialFitsTwentyOctets | ca-server/src/main.rs:60-92 | every serial the CA draws encodes in at most 20 octets (section 4.1.2.2 of RFC 5280) |
| Ca.DeviceId | ca-server/src/main.rs:76-81 | the device id is the first CN of the CSR subject, and exists only when that CN is text |
| Ca.BuildCertificate | ca-server/src/main.rs:85-92 | version value 2 (v3), subject and public key from the CSR, issuer the CA subject, valid from now for 365 days, serial below 2^159 |
| Ca.SignCsr | ca-server/src/main.rs:67-110 | an unparsable PEM gives 400 "CSR PEM non valido: …", a missing or non-text CN gives 400 "Common Name (CN) non trovato nella CSR.", a failed put gives 500 "Errore di storage interno."; a certificate is returned exactly when the put succeeds, and it is the one stored at `devices/certificates/{cn}`; every refusal leaves the store unchanged |
| Ca.ReissueOverwrites | ca-server/src/main.rs:100-109 | signing again for the same CN replaces the stored certificate and adds no key |
| Framing.Header | device-logic/src/lib.rs:43 | the four header bytes are the big-endian value of the length |
| Framing.LengthField | device-logic/src/lib.rs:43 | `len as u32` is below 2^32 and equals the length whenever the length is below 2^32 |
| Framing.HeaderOfValue | device-logic/src/lib.rs:47 | any four bytes read as a length are the header of that length |
| Framing.EncodeFrame | device-logic/src/lib.rs:42-44 | a frame is the header of the length cast to u32, followed by the payload |
| Framing.ReadFrame | device-logic/src/lib.rs:47-49 | fewer than 4 bytes fail the length read; a frame read is exactly an encoded frame followed by the remaining input |
| Framing.FrameRoundTrip | device-logic/src/lib.rs:42-49 | a payload shorter than 2^32 bytes reads back intact whatever follows it |
| Framing.OversizedFrameSplits | device-logic/src/lib.rs:43-48 | a payload of 2^32 bytes or more is truncated by the cast and no longer reads back as itself |
| Framing.AnyLengthAccepted | device-logic/src/lib.rs:62-65 | every announced length is read in full, with no size cap |
| Device.CommandPayloadRoundTrip | device-logic/src/lib.rs:41-42 | the bincode command payload (u64 little-endian length, then the bytes) reads back as the command |
| Device.CommandPayload | device-logic/src/lib.rs:42 | the bincode payload of a command is 8 bytes longer than the command, its first 8 bytes read little-endian give the command's length, and the rest is the command |
| Device.CommandFrame | device-logic/src/lib.rs:41-44 | the bytes written for a command are the 4-byte header followed by its bincode payload, 12 bytes more than the command |
| Device.CommandFrameReadsBack | device-logic/src/lib.rs:41-44 | a command frame reads back as one frame whose payload decodes to the command |
| Device.HeartbeatLoop | device-logic/src/lib.rs:53-78 | sent frames and read replies alternate and every frame sent is a heartbeat; the run stops exactly at its cause: at the write-side call `k + 3j` (length), `+1` (payload) or `+2` (flush, an error) of round `j`, after every earlier write-side call succeeded, or at a length or body read that runs short on the input left after the replies read, or with a panic on the first reply that does not decode; every other reply decodes, and the replies read are consecutive frames at the start of the input |
| Device.Workflow | device-logic/src/lib.rs:40-79 | the first event is the REGISTER frame, every later frame is a heartbeat, events alternate; the run stops exactly at its cause, as for the heartbeat loop from call 0; every failure in the REGISTER exchange is an error, the loop ends normally only after the REGISTER reply was read, and only a failed flush ends the heartbeat loop with an error |
| Device.RegistrationReply | device-logic/src/lib.rs:47-78 | after the REGISTER frame is out, a short length or body read of its reply is an error with the REGISTER frame as the only event; otherwise the reply is read and the heartbeat loop follows, events alternate, every later frame is a heartbeat, and when the REGISTER writes succeeded every exit is explained as for the loop from call 0 |
| Device.HeartbeatLoopDrains | device-logic/src/lib.rs:53-78 | with every write succeeding and the input made of whole decodable frames, the loop answers each heartbeat with the next frame and stops normally at the length read once the input is used up |
| Device.WorkflowCompletes | device-logic/src/lib.rs:40-79 | with every write succeeding and the server sending whole decodable frames and then closing, the run is REGISTER, its reply, a HEARTBEAT for each further reply, and a last HEARTBEAT, ending `Ok` |
| Device.RegisterFirst | device-logic/src/lib.rs:41-55 | exactly one REGISTER frame is sent, and its reply is read before the first HEARTBEAT frame |
| Device.DeviceName | device-logic/src/lib.rs:98 | a new identity's CN is "device-" followed by the decimal digits of the u32 draw, with no leading zero |
| Device.DeviceNameInjective | device-logic/src/lib.rs:98 | distinct draws give distinct CNs |
| Device.IdentityRequest | device-logic/src/lib.rs:95-101 | the CSR carries the new public key and a subject whose first CN is the device name |
| Device.GetOrCreateIdentity | device-logic/src/lib.rs:82-116 | with both files present the CA is not contacted and the identity is reused exactly when the files load, and otherwise it is contacted; files change only after a 2xx answer with a readable body and a successful key write; the certificate file changes only after the key file; a new identity exists exactly when every step succeeds, and then both files hold it; a received certificate that does not parse leaves both files written and no identity |
| Device.ProvisionedIsReused | device-logic/src/lib.rs:83-112 | after a successful provisioning the next start does not contact the CA, and reuses the identity when its files load |
| Device.HalfWrittenIdentityReused | device-logic/src/lib.rs:83-112 | a certificate write that fails (before touching the file) after a successful key write, beside an old certificate file, makes the next start reuse a mismatched pair |
| Device.UnparsableCertificateKept | device-logic/src/lib.rs:110-114 | a received certificate that does not parse is still written with the new key, and every later start finds both files and never contacts the CA again |
| Provisioning.DeviceNameAdmitted | registration-server/src/main.rs:158 | no device name a client generates is refused by the sentinel gate |
| Provisioning.CaNamesDevice | ca-server/src/main.rs:77-80 | the CA's device id for the client's CSR is the client's own device name |
| Provisioning.IssuedCertificateIdentifiesDevice | ca-server/src/main.rs:100-109 | the certificate issued for the client's CSR yields, on the registration server, the client's device name as its identity, and is stored under that name |
| Provisioning.IssuedDeviceRegisters | registration-server/src/handlers.rs:12-16 | once the CA has stored a device's certificate, that device's first library registration completes |
| Provisioning.UnissuedDeviceRefused | registration-server/src/handlers.rs:12-16 | without a stored certificate the library handler refuses the device and writes nothing |

## Left out

- TLS and cryptography are left out: rustls handshakes and chain verification, x509_parser, OpenSSL CSR parsing, signing and RSA key generation. They appear only as their results: a parsed or unparsable certificate, a parsed CSR or a PEM error, a generated key pair.
- The text of PEM and DER is left out. A stored certificate is `CertPem(certificate)`, and a `DeviceInfo` stored as JSON is `InfoJson(record)`; the serde_json text of records is not modelled.
- Time is a `nat` count of seconds. `DateTime<Utc>` precision and `Asn1Time` formatting are not modelled.
- etcd is a map. Revisions, leases and transactions are not used by the code and are not modelled. A failed put is taken to leave the store unchanged.
- Concurrency is left out: tokio tasks and the races between two connections of the same device (read-then-put). Only one task at a time is modelled, and nothing is claimed about exactly-once registration.
- Not modelled: the axum HTTP layer, health endpoints, logging, configuration and environment loading, `load_certs`/`load_private_key`, the load tester and the registration client binaries.
- Handlers.Register: the nested heartbeat sees the same `now` as the registration, whereas the source reads the clock again.
- Server.Heartbeat: requires the stored record to deserialise (`Server.Healthy`). The source unwraps the deserialisation and the connection task panics otherwise. `Session.Dispatch`, `Session.Answer` and `Session.Serve` inherit this precondition, so a session on an undecodable `devices/{id}` record is excluded even if it never sends HEARTBEAT, although the source answers REGISTER on such a record without decoding it. Refused sessions carry no such precondition.
- Session.PeerIdentity: a first CN that is not text gives `None`. The source unwraps it and the connection task panics, so no command is served.
- Session.Serve: the serde_json parser of requests is the parameter `decode`. A read error and a 0-byte read both end the loop, and a failed flush is ignored, as in the source.
- Ca.SignCsr: the `unwrap` calls in the certificate builder, the signing and the PEM conversion are assumed to succeed. The returned PEM is represented by the certificate itself, which is the value stored.
- Ca.BuildCertificate: not_before and not_after come from one clock reading `now`. The source reads the clock twice (`days_from_now(0)`, then `days_from_now(365)`), so the validity can exceed 365 days by the time between the two calls.
- Ca.CreateSerialNumber: the random draw is a parameter reduced below 2^159. A failure of OpenSSL's generator (`unwrap`) is not modelled.
- Device.CommandFrame: command strings are restricted to ASCII, which covers the two commands the client sends.
- Device.Workflow: the steps before the stream exists are not modelled: loading the CA root and TLS setup, each of which fails with `Err`.
  - Reply deserialisation is the parameter `decodes`.
  - A read that fails for a reason other than end of input is modelled as the input ending there.
  - The 10-second sleep is not modelled.
- Device.GetOrCreateIdentity: a failed file write is taken to leave that file untouched. The source's `fs::write` truncates the file when it opens it, so a failure after the open leaves an empty or partial file that the next start finds and tries to load. The reads and parses of the two existing files are one outcome, `load`, which on the provisioning path stands for the parse of the received certificate. The message text of the CA error is not modelled. Key generation and CSR construction are assumed to succeed.

=== FILE: bytes.dfy ===
/** Byte-level integer encodings shared by the frame header (4-byte
    big-endian `u32`), the bincode string prefix (8-byte little-endian `u64`)
    and the DER content octets of a certificate serial number. */
module Bytes {

  /** An octet; bytes on the wire and in files are sequences of these. */
  newtype byte = x: int | 0 <= x < 256

  function Pow(base: nat, exp: nat): (r: nat)
    ensures base > 0 ==> r > 0
  {
    if exp == 0 then 1 else base * Pow(base, exp - 1)
  }

  lemma MulAssoc(x: nat, y: nat, z: nat)
    ensures x * (y * z) == (x * y) * z
  {
  }

  lemma {:induction false} PowAdd(base: nat, a: nat, b: nat)
    ensures Pow(base, a + b) == Pow(base, a) * Pow(base, b)
    decreases a
  {
    if a > 0 {
      PowAdd(base, a - 1, b);
      var x, y := Pow(base, a - 1), Pow(base, b);
      assert Pow(base, a + b) == base * Pow(base, (a - 1) + b);
      MulAssoc(base, x, y);
    }
  }

  /** Dividing by the radix lowers a bound of 256^(k+1) to 256^k. */
  lemma DivByRadix(n: nat, k: nat)
    requires n < Pow(256, k + 1)
    ensures n / 256 < Pow(256, k)
    ensures n == (n / 256) * 256 + n % 256
  {
    assert Pow(256, k + 1) == 256 * Pow(256, k);
  }

  /** Value of a big-endian byte string. */
  function FromBigEndian(b: seq<byte>): nat
  {
    if |b| == 0 then 0 else FromBigEndian(b[..|b| - 1]) * 256 + b[|b| - 1] as nat
  }

  /** Value of a little-endian byte string. */
  function FromLittleEndian(b: seq<byte>): nat
  {
    if |b| == 0 then 0 else b[0] as nat + 256 * FromLittleEndian(b[1..])
  }

  /** Fixed-width little-endian encoding, as bincode writes a `u64` length. */
  function ToLittleEndian(n: nat, width: nat): (r: seq<byte>)
    requires n < Pow(256, width)
    ensures |r| == width
    ensures FromLittleEndian(r) == n
    decreases width
  {
    if width == 0 then []
    else
      DivByRadix(n, width - 1);
      var r := [(n % 256) as byte] + ToLittleEndian(n / 256, width - 1);
      assert r[1..] == ToLittleEndian(n / 256, width - 1);
      r
  }

  /** Shortest big-endian encoding of `n` (empty for zero). */
  function Minimal(n: nat): (r: seq<byte>)
    ensures FromBigEndian(r) == n
    ensures n == 0 <==> |r| == 0
    ensures |r| > 0 ==> r[0] != 0
    decreases n
  {
    if n == 0 then []
    else
      var rest := Minimal(n / 256);
      var r := rest + [(n % 256) as byte];
      assert r[..|r| - 1] == rest;
      r
  }

  /** A number below 256^k needs at most k bytes. */
  lemma {:induction false} MinimalLength(n: nat, k: nat)
    requires n < Pow(256, k)
    ensures |Minimal(n)| <= k
    decreases n
  {
    if n > 0 {
      assert k > 0;
      DivByRadix(n, k - 1);
      MinimalLength(n / 256, k - 1);
    }
  }

  lemma ScaleBound(a: nat, p: nat, n: nat)
    requires a * p <= n / 256
    ensures a * (256 * p) <= n
  {
    assert a * (256 * p) == 256 * (a * p);
  }

  /** The leading byte of the shortest encoding carries the high-order part
      of the value. */
  lemma {:induction false} MinimalLead(n: nat)
    requires n > 0
    ensures Minimal(n)[0] as nat * Pow(256, |Minimal(n)| - 1) <= n
    decreases n
  {
    var m := Minimal(n / 256);
    var r := Minimal(n);
    assert r == m + [(n % 256) as byte];
    if |m| == 0 {
      assert n / 256 == 0;
      assert r[0] as nat == n;
      assert Pow(256, |r| - 1) == 1;
    } else {
      MinimalLead(n / 256);
      var a := m[0] as nat;
      var p := Pow(256, |m| - 1);
      assert r[0] as nat == a && |r| - 1 == |m|;
      assert Pow(256, |m|) == 256 * p;
      ScaleBound(a, p, n);
    }
  }
}

=== FILE: ca.dfy ===
/** The certificate authority's `sign_csr_handler`: parse the CSR, take the
    device identity from its first common name, build a version 3
    certificate valid for 365 days, record it under
    `devices/certificates/{id}` and hand it out only if the record was
    written. Signing itself (SHA-256 with the CA key) is opaque. */
module Ca {
  import opened Optional
  import opened Bytes
  import opened Records
  import opened X509

  const SECONDS_PER_DAY := 86400
  const VALIDITY_DAYS := 365
  const SERIAL_BITS := 159
  /** 2^159: `rand(159, ...)` draws below this bound. */
  const SERIAL_LIMIT: nat := 0x8000_0000_0000_0000_0000_0000_0000_0000_0000_0000
  /** The version field value of an X.509 v3 certificate (section 4.1.2.1 of RFC 5280). */
  const VERSION_3 := 2
  /** Serial numbers take at most 20 octets (section 4.1.2.2 of RFC 5280). */
  const SERIAL_MAX_OCTETS := 20

  const BAD_REQUEST := 400
  const INTERNAL_SERVER_ERROR := 500
  const INVALID_PEM_PREFIX := "CSR PEM non valido: "
  const MISSING_COMMON_NAME := "Common Name (CN) non trovato nella CSR."
  const STORAGE_ERROR := "Errore di storage interno."

  /** What the handler reads of the CA certificate: its subject. */
  datatype Authority = Authority(subject: Name)

  /** `X509Req::from_pem`: a request, or OpenSSL's error text. */
  datatype PemParse = ParsedCsr(csr: Csr) | PemError(detail: string)

  /** The HTTP answer: the PEM of the certificate, or a status and a message. */
  datatype Answer = Issued(cert: Certificate) | Refused(status: nat, message: string)

  datatype Issuance = Issuance(answer: Answer, store: Store)

  /** `create_serial_number`: `random` stands for the bits OpenSSL draws;
      159 of them are kept and the top one may be zero. */
  function CreateSerialNumber(random: nat): (serial: nat)
    ensures serial < SERIAL_LIMIT
    ensures random < SERIAL_LIMIT ==> serial == random
  {
    random % SERIAL_LIMIT
  }

  /** `MAYBE_ZERO` lets the serial be 0, which section 4.1.2.2 of RFC 5280
      excludes (serials are positive integers); the code does not rule it out. */
  lemma SerialMayBeZero()
    ensures CreateSerialNumber(0) == 0
    ensures CreateSerialNumber(SERIAL_LIMIT) == 0
  {
  }

  /** DER content octets of a non-negative INTEGER: the shortest
      two's-complement big-endian form. */
  function IntegerOctets(n: nat): (r: seq<byte>)
    ensures |r| > 0 && r[0] < 128
    ensures FromBigEndian(r) == n
    ensures |r| > 1 ==> r[0] != 0 || r[1] >= 128
  {
    var m := Minimal(n);
    if |m| == 0 then [0]
    else if m[0] >= 128 then
      var r := [0 as byte] + m;
      LeadingZero(m);
      r
    else m
  }

  lemma {:induction false} LeadingZero(m: seq<byte>)
    ensures FromBigEndian([0 as byte] + m) == FromBigEndian(m)
    decreases |m|
  {
    if |m| > 0 {
      var z := [0 as byte] + m;
      assert z[..|z| - 1] == [0 as byte] + m[..|m| - 1];
      LeadingZero(m[..|m| - 1]);
    } else {
      assert [0 as byte] + m == [0 as byte];
      assert ([0 as byte])[..0] == [];
    }
  }

  /** Every serial the CA draws fits the 20 octets section 4.1.2.2 of RFC
      5280 allows, sign octet included. */
  lemma SerialLimitInOctets()
    ensures SERIAL_LIMIT == 128 * Pow(256, 19)
    ensures SERIAL_LIMIT < Pow(256, 20)
  {
    assert Pow(256, 1) == 256;
    assert Pow(256, 2) == 0x1_0000;
    PowAdd(256, 2, 2);
    PowAdd(256, 4, 4);
    PowAdd(256, 8, 8);
    PowAdd(256, 16, 2);
    PowAdd(256, 18, 1);
    assert Pow(256, 19) == 0x100_0000_0000_0000_0000_0000_0000_0000_0000_0000;
    assert Pow(256, 20) == 256 * Pow(256, 19);
  }

  lemma SerialFitsTwentyOctets(random: nat)
    ensures |IntegerOctets(CreateSerialNumber(random))| <= SERIAL_MAX_OCTETS
  {
    var n := CreateSerialNumber(random);
    SerialLimitInOctets();
    MinimalLength(n, 20);
    var m := Minimal(n);
    if |m| == 20 && m[0] >= 128 {
      MinimalLead(n);
      assert m[0] as nat * Pow(256, 19) >= 128 * Pow(256, 19);
      assert false;
    }
  }

  /** The device identity: the first common-name entry, if it converts to UTF-8. */
  function DeviceId(csr: Csr): (r: Option<string>)
    ensures r.Some? <==> FirstCommonName(csr.subject).Some? && FirstCommonName(csr.subject).value.Text?
    ensures r.Some? ==> FirstCommonName(csr.subject) == Some(Text(r.value))
  {
    match FirstCommonName(csr.subject)
    case Some(Text(cn)) => Some(cn)
    case _ => None
  }

  /** The certificate the builder assembles for a request. */
  function BuildCertificate(ca: Authority, csr: Csr, now: nat, random: nat): (cert: Certificate)
    ensures cert.version == VERSION_3
    ensures cert.subject == csr.subject && cert.publicKey == csr.publicKey
    ensures cert.issuer == ca.subject
    ensures cert.notBefore == now && cert.notAfter - cert.notBefore == VALIDITY_DAYS * SECONDS_PER_DAY
    ensures cert.serial < SERIAL_LIMIT
  {
    Certificate(
      version := VERSION_3,
      serial := CreateSerialNumber(random),
      issuer := ca.subject,
      notBefore := now,
      notAfter := now + VALIDITY_DAYS * SECONDS_PER_DAY,
      subject := csr.subject,
      publicKey := csr.publicKey)
  }

  /** `sign_csr_handler`. `parse` is OpenSSL's PEM parser, `now` the clock in
      seconds, `random` the serial's entropy and `put` the outcome of the
      store write. */
  function SignCsr(ca: Authority, pem: string, parse: string -> PemParse, now: nat, random: nat, put: Outcome, store: Store): (r: Issuance)
    ensures r.answer.Refused? ==> r.store == store
    ensures r.answer.Refused? ==> r.answer.status in {BAD_REQUEST, INTERNAL_SERVER_ERROR}
    ensures parse(pem).PemError? ==> r == Issuance(Refused(BAD_REQUEST, INVALID_PEM_PREFIX + parse(pem).detail), store)
    ensures (parse(pem).ParsedCsr? && DeviceId(parse(pem).csr).None?) ==> r == Issuance(Refused(BAD_REQUEST, MISSING_COMMON_NAME), store)
    ensures (r.answer == Refused(INTERNAL_SERVER_ERROR, STORAGE_ERROR))
              <==> (parse(pem).ParsedCsr? && DeviceId(parse(pem).csr).Some? && put.Err?)
    ensures r.answer.Issued? <==> (parse(pem).ParsedCsr? && DeviceId(parse(pem).csr).Some? && put.Ok?)
    ensures r.answer.Issued? ==>
              var csr := parse(pem).csr;
              var id := DeviceId(csr).value;
              && r.answer.cert == BuildCertificate(ca, csr, now, random)
              && FirstCommonName(r.answer.cert.subject) == Some(Text(id))
              && r.store == store[CertKey(id) := CertPem(r.answer.cert)]
  {
    match parse(pem)
    case PemError(detail) => Issuance(Refused(BAD_REQUEST, INVALID_PEM_PREFIX + detail), store)
    case ParsedCsr(csr) =>
      match DeviceId(csr)
      case None => Issuance(Refused(BAD_REQUEST, MISSING_COMMON_NAME), store)
      case Some(id) =>
        var cert := BuildCertificate(ca, csr, now, random);
        if put.Err? then Issuance(Refused(INTERNAL_SERVER_ERROR, STORAGE_ERROR), store)
        else Issuance(Issued(cert), store[CertKey(id) := CertPem(cert)])
  }

  /** Signing again for the same common name replaces the recorded
      certificate: there is no deduplication. */
  lemma ReissueOverwrites(ca: Authority, pem1: string, pem2: string, parse: string -> PemParse,
                          t1: nat, t2: nat, r1: nat, r2: nat, store: Store)
    requires parse(pem1).ParsedCsr? && parse(pem2).ParsedCsr?
    requires DeviceId(parse(pem1).csr).Some?
    requires DeviceId(parse(pem2).csr) == DeviceId(parse(pem1).csr)
    ensures var first := SignCsr(ca, pem1, parse, t1, r1, Ok, store);
            var second := SignCsr(ca, pem2, parse, t2, r2, Ok, first.store);
            var key := CertKey(DeviceId(parse(pem1).csr).value);
            && first.answer.Issued? && second.answer.Issued?
            && second.store[key] == CertPem(second.answer.cert)
            && second.store.Keys == first.store.Keys
  {
  }
}

=== FILE: device.dfy ===
/** The device client (`run_device_workflow`, `get_or_create_identity`): one
    REGISTER exchange, then heartbeats until the connection gives out, over
    the length-prefixed frames of `Framing`; and the choice between reusing
    the identity on disk and provisioning a new one from the CA. */
module Device {
  import opened Optional
  import opened Bytes
  import opened Text
  import opened Records
  import opened X509
  import opened Framing

  // ---------------------------------------------------------------------
  // Command payloads
  // ---------------------------------------------------------------------

  const LENGTH_WIDTH := 8
  const U64_LIMIT: nat := 0x1_0000_0000_0000_0000

  lemma U64LimitIsPow()
    ensures Pow(256, LENGTH_WIDTH) == U64_LIMIT
  {
    PowAdd(256, 4, 4);
    PowAdd(256, 2, 2);
  }

  /** The bytes of an ASCII string, as its UTF-8 encoding. */
  function Ascii(s: string): (b: seq<byte>)
    requires forall i :: 0 <= i < |s| ==> s[i] as int < 128
    ensures |b| == |s|
    ensures forall i :: 0 <= i < |s| ==> b[i] as int == s[i] as int
  {
    seq(|s|, i requires 0 <= i < |s| => s[i] as int as byte)
  }

  /** `bincode::serialize(&CommandRequest { command })`: the string's length
      as a little-endian `u64`, then its bytes. */
  function CommandPayload(command: seq<byte>): (p: seq<byte>)
    requires |command| < U64_LIMIT
    ensures |p| == LENGTH_WIDTH + |command|
    ensures FromLittleEndian(p[..LENGTH_WIDTH]) == |command|
    ensures p[LENGTH_WIDTH..] == command
  {
    U64LimitIsPow();
    var prefix := ToLittleEndian(|command|, LENGTH_WIDTH);
    assert (prefix + command)[..LENGTH_WIDTH] == prefix;
    prefix + command
  }

  /** The `command` field a bincode reader recovers from a payload: a
      `u64` length and that many bytes; later bytes are not looked at. */
  function DecodeCommandPayload(p: seq<byte>): (r: Option<seq<byte>>)
    ensures r.Some? ==> |p| >= LENGTH_WIDTH + |r.value| && p[LENGTH_WIDTH..LENGTH_WIDTH + |r.value|] == r.value
    ensures |p| < LENGTH_WIDTH ==> r.None?
  {
    if |p| < LENGTH_WIDTH then None
    else
      var n := FromLittleEndian(p[..LENGTH_WIDTH]);
      if |p| - LENGTH_WIDTH < n then None else Some(p[LENGTH_WIDTH..LENGTH_WIDTH + n])
  }

  lemma CommandPayloadRoundTrip(command: seq<byte>)
    requires |command| < U64_LIMIT
    ensures DecodeCommandPayload(CommandPayload(command)) == Some(command)
  {
    var p := CommandPayload(command);
    assert p[LENGTH_WIDTH..LENGTH_WIDTH + |command|] == command;
  }

  const REGISTER := "REGISTER"
  const HEARTBEAT := "HEARTBEAT"

  /** The frame carrying a command, exactly as it goes on the stream. */
  function CommandFrame(command: string): (frame: seq<byte>)
    requires forall i :: 0 <= i < |command| ==> command[i] as int < 128
    requires |command| < U64_LIMIT
    ensures |frame| == HEADER_SIZE + LENGTH_WIDTH + |command|
    ensures frame[HEADER_SIZE..] == CommandPayload(Ascii(command))
  {
    EncodeFrame(CommandPayload(Ascii(command)))
  }

  /** A command frame reads back as one frame whose payload decodes to the command. */
  lemma CommandFrameReadsBack(command: string)
    requires forall i :: 0 <= i < |command| ==> command[i] as int < 128
    requires |command| + LENGTH_WIDTH < U32_LIMIT
    ensures ReadFrame(CommandFrame(command)) == Frame(CommandPayload(Ascii(command)), [])
    ensures DecodeCommandPayload(ReadFrame(CommandFrame(command)).payload) == Some(Ascii(command))
  {
    var payload := CommandPayload(Ascii(command));
    FrameRoundTrip(payload, []);
    assert EncodeFrame(payload) + [] == EncodeFrame(payload);
    CommandPayloadRoundTrip(Ascii(command));
  }

  // ---------------------------------------------------------------------
  // The connection workflow
  // ---------------------------------------------------------------------

  /** The frame of a command (`CommandFrame`) written and flushed in full, or a reply frame read in full. */
  datatype Event = Sent(command: string) | Received(payload: seq<byte>)

  /** The I/O call at which a run stopped. */
  datatype Stage = WriteLength | WritePayload | Flush | ReadLength | ReadBody

  /** How `run_device_workflow` leaves: `Ok(())` after the heartbeat loop
      breaks, `Err` through a `?`, or a panic in the `unwrap` of a reply
      that does not deserialise. */
  datatype Exit = Stopped(stage: Stage) | Failed(stage: Stage) | Panicked

  datatype Run = Run(events: seq<Event>, exit: Exit)

  /** Outcome of the `k`-th write-side call (`write_u32`, `write_all`,
      `flush`, in order); calls past the end of `writes` succeed. */
  predicate WriteOk(writes: seq<bool>, k: nat)
  {
    k >= |writes| || writes[k]
  }

  /** Events alternate, starting with a sent frame. */
  predicate Alternating(events: seq<Event>)
  {
    forall i :: 0 <= i < |events| ==> (events[i].Sent? <==> i % 2 == 0)
  }

  /** The reply payloads of a run, in order. */
  function Replies(events: seq<Event>): (r: seq<seq<byte>>)
    ensures |r| <= |events|
  {
    if |events| == 0 then []
    else if events[0].Received? then [events[0].payload] + Replies(events[1..])
    else Replies(events[1..])
  }

  /** The frames that carry the given payloads, back to back. */
  function Frames(payloads: seq<seq<byte>>): seq<byte>
  {
    if |payloads| == 0 then [] else EncodeFrame(payloads[0]) + Frames(payloads[1..])
  }

  /** One more round in front of a run: alternation and the reply frames
      being a prefix of the input carry over. */
  lemma PrependRound(sent: Event, p: seq<byte>, events: seq<Event>, incoming: seq<byte>, rest: seq<byte>)
    requires sent.Sent?
    requires Alternating(events)
    requires incoming == EncodeFrame(p) + rest
    requires Frames(Replies(events)) <= rest
    ensures Alternating([sent, Received(p)] + events)
    ensures Replies([sent, Received(p)] + events) == [p] + Replies(events)
    ensures Frames(Replies([sent, Received(p)] + events)) == EncodeFrame(p) + Frames(Replies(events))
    ensures Frames(Replies([sent, Received(p)] + events)) <= incoming
  {
    var all := [sent, Received(p)] + events;
    assert all[1..] == [Received(p)] + events;
    assert ([Received(p)] + events)[1..] == events;
    forall i | 2 <= i < |all|
      ensures all[i].Sent? <==> i % 2 == 0
    {
      assert all[i] == events[i - 2];
    }
    assert Frames(Replies(all)) == EncodeFrame(p) + Frames(Replies(events));
  }

  /** Why a round that had made its three write-side calls from call `base`
      on stopped at `stage`: that call failed, after the earlier ones of the
      round succeeded, or the reply ran short. `sentOut` says whether the
      round's frame went out; `unread` is the input the round read from. */
  predicate StageExplained(stage: Stage, sentOut: bool, unread: seq<byte>, writes: seq<bool>, base: nat)
  {
    match stage
    case WriteLength => !sentOut && !WriteOk(writes, base)
    case WritePayload => !sentOut && WriteOk(writes, base) && !WriteOk(writes, base + 1)
    case Flush => !sentOut && WriteOk(writes, base) && WriteOk(writes, base + 1) && !WriteOk(writes, base + 2)
    case ReadLength => sentOut && ReadFrame(unread).LengthShort?
    case ReadBody => sentOut && ReadFrame(unread).BodyShort?
  }

  /** The write-side calls a run made from call `k` on all succeeded: the
      three of each completed round, and those of a last round whose frame
      went out. A round makes calls `k + 3j`, `k + 3j + 1` and `k + 3j + 2`,
      where `j` is the number of rounds before it. */
  predicate WritesSucceeded(events: seq<Event>, writes: seq<bool>, k: nat)
  {
    var base := k + 3 * (|events| / 2);
    && (forall i :: k <= i < base ==> WriteOk(writes, i))
    && (|events| % 2 == 1 ==> WriteOk(writes, base) && WriteOk(writes, base + 1) && WriteOk(writes, base + 2))
  }

  /** Every reply read decodes, except a last one on which the run panicked. */
  predicate RepliesDecode(exit: Exit, events: seq<Event>, decodes: seq<byte> -> bool)
  {
    forall i :: 0 <= i < |events| && events[i].Received? && !(exit.Panicked? && i == |events| - 1) ==> decodes(events[i].payload)
  }

  /** The run stopped exactly at the call that failed, the reply that ran
      short or the reply that did not decode. */
  predicate ExitCause(exit: Exit, events: seq<Event>, incoming: seq<byte>, writes: seq<bool>, k: nat, decodes: seq<byte> -> bool)
    requires Frames(Replies(events)) <= incoming
  {
    var base := k + 3 * (|events| / 2);
    var sentOut := |events| % 2 == 1;
    var unread := incoming[|Frames(Replies(events))|..];
    match exit
    case Panicked => |events| > 0 && !sentOut && events[|events| - 1].Received? && !decodes(events[|events| - 1].payload)
    case Stopped(stage) => StageExplained(stage, sentOut, unread, writes, base)
    case Failed(stage) => StageExplained(stage, sentOut, unread, writes, base)
  }

  /** The cause of a run's exit, for a run whose write-side calls start at
      call `k`. */
  predicate Explains(exit: Exit, events: seq<Event>, incoming: seq<byte>, writes: seq<bool>, k: nat, decodes: seq<byte> -> bool)
    requires Frames(Replies(events)) <= incoming
  {
    WritesSucceeded(events, writes, k) && RepliesDecode(exit, events, decodes) && ExitCause(exit, events, incoming, writes, k, decodes)
  }

  /** A run that starts with the round at call `k` stops for the reason its
      first round gives, when it ends in that round. */
  lemma FirstRoundExplains(sent: Event, incoming: seq<byte>, writes: seq<bool>, k: nat, decodes: seq<byte> -> bool, exit: Exit)
    requires sent.Sent?
    requires !exit.Panicked? && !ReadFrame(incoming).Frame?
    requires exit.stage == (if ReadFrame(incoming).LengthShort? then ReadLength else ReadBody)
    ensures Frames(Replies([sent])) <= incoming
    ensures (WriteOk(writes, k) && WriteOk(writes, k + 1) && WriteOk(writes, k + 2)) ==> Explains(exit, [sent], incoming, writes, k, decodes)
  {
    assert Replies([sent]) == [];
    assert incoming[0..] == incoming;
  }

  /** A first round whose reply does not decode explains the panic. */
  lemma PanicExplains(sent: Event, p: seq<byte>, incoming: seq<byte>, rest: seq<byte>, writes: seq<bool>, k: nat, decodes: seq<byte> -> bool)
    requires sent.Sent? && incoming == EncodeFrame(p) + rest && !decodes(p)
    ensures Alternating([sent, Received(p)])
    ensures Frames(Replies([sent, Received(p)])) <= incoming
    ensures (WriteOk(writes, k) && WriteOk(writes, k + 1) && WriteOk(writes, k + 2)) ==>
              Explains(Panicked, [sent, Received(p)], incoming, writes, k, decodes)
  {
    PrependRound(sent, p, [], incoming, rest);
    assert [sent, Received(p)] + [] == [sent, Received(p)];
  }

  /** The write-side calls of one more completed round in front. */
  lemma WritesAfterRound(sent: Event, p: seq<byte>, events: seq<Event>, writes: seq<bool>, k: nat)
    requires WriteOk(writes, k) && WriteOk(writes, k + 1) && WriteOk(writes, k + 2)
    requires WritesSucceeded(events, writes, k + 3)
    ensures WritesSucceeded([sent, Received(p)] + events, writes, k)
  {
    var all := [sent, Received(p)] + events;
    assert k + 3 * (|all| / 2) == (k + 3) + 3 * (|events| / 2);
  }

  /** The replies of one more decodable round in front. */
  lemma RepliesAfterRound(sent: Event, p: seq<byte>, events: seq<Event>, exit: Exit, decodes: seq<byte> -> bool)
    requires sent.Sent? && decodes(p)
    requires RepliesDecode(exit, events, decodes)
    ensures RepliesDecode(exit, [sent, Received(p)] + events, decodes)
  {
    var all := [sent, Received(p)] + events;
    forall i | 0 <= i < |all| && all[i].Received? && !(exit.Panicked? && i == |all| - 1)
      ensures decodes(all[i].payload)
    {
      if i >= 2 {
        assert all[i] == events[i - 2];
      }
    }
  }

  /** The exit cause of a run, seen behind one more answered round. */
  lemma CauseAfterRound(sent: Event, p: seq<byte>, events: seq<Event>, exit: Exit, incoming: seq<byte>, rest: seq<byte>,
                        writes: seq<bool>, k: nat, decodes: seq<byte> -> bool)
    requires sent.Sent? && Alternating(events)
    requires incoming == EncodeFrame(p) + rest
    requires Frames(Replies(events)) <= rest
    requires ExitCause(exit, events, rest, writes, k + 3, decodes)
    ensures Frames(Replies([sent, Received(p)] + events)) <= incoming
    ensures ExitCause(exit, [sent, Received(p)] + events, incoming, writes, k, decodes)
  {
    PrependRound(sent, p, events, incoming, rest);
    var all := [sent, Received(p)] + events;
    var m := |Frames(Replies(events))|;
    assert |Frames(Replies(all))| == |EncodeFrame(p)| + m;
    assert incoming[|EncodeFrame(p)| + m..] == rest[m..];
    assert k + 3 * (|all| / 2) == (k + 3) + 3 * (|events| / 2);
    assert all[|all| - 1] == if |events| == 0 then Received(p) else events[|events| - 1];
  }

  /** One more answered round in front of a run keeps the run's exit explained. */
  lemma ExplainsAfterRound(sent: Event, p: seq<byte>, events: seq<Event>, exit: Exit, incoming: seq<byte>, rest: seq<byte>,
                           writes: seq<bool>, k: nat, decodes: seq<byte> -> bool)
    requires sent.Sent? && Alternating(events)
    requires incoming == EncodeFrame(p) + rest
    requires Frames(Replies(events)) <= rest
    requires decodes(p)
    requires Explains(exit, events, rest, writes, k + 3, decodes)
    ensures Frames(Replies([sent, Received(p)] + events)) <= incoming
    ensures (WriteOk(writes, k) && WriteOk(writes, k + 1) && WriteOk(writes, k + 2)) ==>
              Explains(exit, [sent, Received(p)] + events, incoming, writes, k, decodes)
  {
    CauseAfterRound(sent, p, events, exit, incoming, rest, writes, k, decodes);
    RepliesAfterRound(sent, p, events, exit, decodes);
    if WriteOk(writes, k) && WriteOk(writes, k + 1) && WriteOk(writes, k + 2) {
      WritesAfterRound(sent, p, events, writes, k);
    }
  }

  /** One heartbeat round after another, from the `k`-th write-side call on,
      reading replies from `incoming`. */
  function HeartbeatLoop(incoming: seq<byte>, writes: seq<bool>, k: nat, decodes: seq<byte> -> bool): (r: Run)
    ensures Alternating(r.events)
    ensures forall i :: 0 <= i < |r.events| && r.events[i].Sent? ==> r.events[i] == Sent(HEARTBEAT)
    ensures r.exit.Stopped? ==> r.exit.stage != Flush
    ensures r.exit.Failed? ==> r.exit.stage == Flush
    ensures Frames(Replies(r.events)) <= incoming
    ensures Explains(r.exit, r.events, incoming, writes, k, decodes)
    decreases |incoming|
  {
    if !WriteOk(writes, k) then Run([], Stopped(WriteLength))
    else if !WriteOk(writes, k + 1) then Run([], Stopped(WritePayload))
    else if !WriteOk(writes, k + 2) then Run([], Failed(Flush))
    else
      var sent := Sent(HEARTBEAT);
      match ReadFrame(incoming)
      case LengthShort =>
        FirstRoundExplains(sent, incoming, writes, k, decodes, Stopped(ReadLength));
        Run([sent], Stopped(ReadLength))
      case BodyShort =>
        FirstRoundExplains(sent, incoming, writes, k, decodes, Stopped(ReadBody));
        Run([sent], Stopped(ReadBody))
      case Frame(p, rest) =>
        if !decodes(p) then
          PanicExplains(sent, p, incoming, rest, writes, k, decodes);
          Run([sent, Received(p)], Panicked)
        else
          var next := HeartbeatLoop(rest, writes, k + 3, decodes);
          PrependRound(sent, p, next.events, incoming, rest);
          ExplainsAfterRound(sent, p, next.events, next.exit, incoming, rest, writes, k, decodes);
          Run([sent, Received(p)] + next.events, next.exit)
  }

  /** The REGISTER reply and what follows it, once the REGISTER frame is out. */
  function RegistrationReply(incoming: seq<byte>, writes: seq<bool>, decodes: seq<byte> -> bool): (r: Run)
    ensures Alternating(r.events)
    ensures |r.events| > 0 && r.events[0] == Sent(REGISTER)
    ensures forall i :: 0 < i < |r.events| && r.events[i].Sent? ==> r.events[i] == Sent(HEARTBEAT)
    ensures Frames(Replies(r.events)) <= incoming
    ensures r.exit.Stopped? ==> |r.events| >= 2 && r.exit.stage != Flush
    ensures (r.exit.Failed? && r.exit.stage != Flush) ==> |r.events| == 1
    ensures |r.events| == 1 ==> r.exit.Failed?
    ensures (WriteOk(writes, 0) && WriteOk(writes, 1) && WriteOk(writes, 2)) ==> Explains(r.exit, r.events, incoming, writes, 0, decodes)
  {
    var sent := Sent(REGISTER);
    match ReadFrame(incoming)
    case LengthShort =>
      FirstRoundExplains(sent, incoming, writes, 0, decodes, Failed(ReadLength));
      Run([sent], Failed(ReadLength))
    case BodyShort =>
      FirstRoundExplains(sent, incoming, writes, 0, decodes, Failed(ReadBody));
      Run([sent], Failed(ReadBody))
    case Frame(p, rest) =>
      if !decodes(p) then
        PanicExplains(sent, p, incoming, rest, writes, 0, decodes);
        Run([sent, Received(p)], Panicked)
      else
        var next := HeartbeatLoop(rest, writes, 3, decodes);
        RegisteredThenHeartbeats(p, next, incoming, rest, writes, decodes);
        Run([sent, Received(p)] + next.events, next.exit)
  }

  /** An answered REGISTER round in front of the heartbeat loop's run `next`. */
  lemma RegisteredThenHeartbeats(p: seq<byte>, next: Run, incoming: seq<byte>, rest: seq<byte>, writes: seq<bool>, decodes: seq<byte> -> bool)
    requires incoming == EncodeFrame(p) + rest && decodes(p)
    requires Alternating(next.events)
    requires forall i :: 0 <= i < |next.events| && next.events[i].Sent? ==> next.events[i] == Sent(HEARTBEAT)
    requires Frames(Replies(next.events)) <= rest
    requires Explains(next.exit, next.events, rest, writes, 3, decodes)
    ensures var events := [Sent(REGISTER), Received(p)] + next.events;
            && Alternating(events)
            && (forall i :: 0 < i < |events| && events[i].Sent? ==> events[i] == Sent(HEARTBEAT))
            && Frames(Replies(events)) <= incoming
            && ((WriteOk(writes, 0) && WriteOk(writes, 1) && WriteOk(writes, 2)) ==> Explains(next.exit, events, incoming, writes, 0, decodes))
  {
    var events := [Sent(REGISTER), Received(p)] + next.events;
    PrependRound(Sent(REGISTER), p, next.events, incoming, rest);
    ExplainsAfterRound(Sent(REGISTER), p, next.events, next.exit, incoming, rest, writes, 0, decodes);
    assert forall i :: 2 <= i < |events| ==> events[i] == next.events[i - 2];
  }

  /** `run_device_workflow` once the TLS stream is up: the REGISTER exchange,
      whose every failure propagates as `Err`, then the heartbeat loop. */
  function Workflow(incoming: seq<byte>, writes: seq<bool>, decodes: seq<byte> -> bool): (r: Run)
    ensures Alternating(r.events)
    ensures |r.events| > 0 ==> r.events[0] == Sent(REGISTER)
    ensures forall i :: 0 < i < |r.events| && r.events[i].Sent? ==> r.events[i] == Sent(HEARTBEAT)
    ensures Frames(Replies(r.events)) <= incoming
    ensures r.exit.Stopped? ==> |r.events| >= 2 && r.exit.stage != Flush
    ensures r.exit.Failed? ==> |r.events| <= 1 || r.exit.stage == Flush
    ensures (|r.events| <= 1 && !r.exit.Panicked?) ==> r.exit.Failed?
    ensures Explains(r.exit, r.events, incoming, writes, 0, decodes)
  {
    if !WriteOk(writes, 0) then Run([], Failed(WriteLength))
    else if !WriteOk(writes, 1) then Run([], Failed(WritePayload))
    else if !WriteOk(writes, 2) then Run([], Failed(Flush))
    else RegistrationReply(incoming, writes, decodes)
  }

  /** The heartbeat rounds that follow when every heartbeat is answered by
      the next of `replies`, and a last heartbeat that gets no reply. */
  function HeartbeatRounds(replies: seq<seq<byte>>): (events: seq<Event>)
    ensures |events| == 2 * |replies| + 1
  {
    if |replies| == 0 then [Sent(HEARTBEAT)]
    else [Sent(HEARTBEAT), Received(replies[0])] + HeartbeatRounds(replies[1..])
  }

  /** Replies that arrive as whole frames, every one of which decodes, keep
      the heartbeat loop going until the input is used up; it then stops
      cleanly at the length read of the next reply. */
  lemma {:induction false} HeartbeatLoopDrains(replies: seq<seq<byte>>, k: nat, decodes: seq<byte> -> bool)
    requires forall i :: 0 <= i < |replies| ==> |replies[i]| < U32_LIMIT && decodes(replies[i])
    ensures HeartbeatLoop(Frames(replies), [], k, decodes) == Run(HeartbeatRounds(replies), Stopped(ReadLength))
    decreases |replies|
  {
    if |replies| > 0 {
      FrameRoundTrip(replies[0], Frames(replies[1..]));
      HeartbeatLoopDrains(replies[1..], k + 3, decodes);
    }
  }

  /** A whole session in which every write succeeds and the server answers
      with decodable frames and then closes: REGISTER, its reply, a
      HEARTBEAT for each further reply, and one last HEARTBEAT whose reply
      never comes, ending `Ok`. */
  lemma WorkflowCompletes(replies: seq<seq<byte>>, decodes: seq<byte> -> bool)
    requires |replies| > 0
    requires forall i :: 0 <= i < |replies| ==> |replies[i]| < U32_LIMIT && decodes(replies[i])
    ensures Workflow(Frames(replies), [], decodes)
              == Run([Sent(REGISTER), Received(replies[0])] + HeartbeatRounds(replies[1..]), Stopped(ReadLength))
  {
    FrameRoundTrip(replies[0], Frames(replies[1..]));
    HeartbeatLoopDrains(replies[1..], 3, decodes);
  }

  /** Exactly one REGISTER frame goes out, and its reply is read before
      the first HEARTBEAT frame. */
  lemma RegisterFirst(incoming: seq<byte>, writes: seq<bool>, decodes: seq<byte> -> bool)
    ensures var events := Workflow(incoming, writes, decodes).events;
            && (forall i :: 0 <= i < |events| && events[i] == Sent(HEARTBEAT) ==> i >= 2 && events[0] == Sent(REGISTER) && events[1].Received?)
            && (forall j :: 0 < j < |events| ==> events[j] != Sent(REGISTER))
  {
    var events := Workflow(incoming, writes, decodes).events;
    if |events| > 1 {
      assert events[1].Received? by { assert 1 % 2 != 0; }
    }
  }

  // ---------------------------------------------------------------------
  // Identity on disk
  // ---------------------------------------------------------------------

  const DEVICE_PREFIX := "device-"
  const U32_BOUND: nat := 0x1_0000_0000

  /** The CN a new identity gets: `format!("device-{}", rand::random::<u32>())`. */
  function DeviceName(nonce: nat): (name: string)
    requires nonce < U32_BOUND
    ensures StartsWith(name, DEVICE_PREFIX)
    ensures var digits := name[|DEVICE_PREFIX|..];
            && (forall i :: 0 <= i < |digits| ==> IsDigit(digits[i])) && |digits| > 0 && ParseDecimal(digits) == nonce
            && (|digits| > 1 ==> digits[0] != '0')
  {
    var name := DEVICE_PREFIX + Decimal(nonce);
    assert name[|DEVICE_PREFIX|..] == Decimal(nonce);
    DecimalRoundTrip(nonce);
    name
  }

  /** Distinct draws give distinct names. */
  lemma DeviceNameInjective(m: nat, n: nat)
    requires m < U32_BOUND && n < U32_BOUND
    ensures DeviceName(m) == DeviceName(n) <==> m == n
  {
  }

  /** The key file and the certificate file; `None` when the file does not exist. */
  datatype Disk = Disk(key: Option<string>, cert: Option<string>)

  /** A freshly generated key pair: its PKCS#8 PEM text and its public key. */
  datatype KeyPair = KeyPair(privatePem: string, publicKey: PublicKey)

  /** The CA's answer to the signing POST: the request never completed, or a
      status with a body that could (`Some`) or could not (`None`) be read. */
  datatype CaReply = Unreachable | Answered(status: nat, body: Option<string>)

  /** Why provisioning stopped: the CA could not be reached, refused, or
      sent an unreadable body; a file write failed; or the PEM text on disk
      (`StoredUnreadable`) or just received (`CertUnparsable`) did not load. */
  datatype IdentityError = CaUnreachable | CaRejected(status: nat) | BodyUnreadable | KeyWriteFailed | CertWriteFailed
                         | StoredUnreadable | CertUnparsable

  datatype Identity = Reused(keyPem: string, certPem: string) | Provisioned(keyPem: string, certPem: string) | NoIdentity(error: IdentityError)

  /** The identity, the disk afterwards, and the CSR posted to the CA (none when it was not contacted). */
  datatype Provisioning = Provisioning(identity: Identity, disk: Disk, request: Option<Csr>)

  /** `StatusCode::is_success`. */
  predicate IsSuccess(status: nat)
  {
    200 <= status < 300
  }

  /** The CSR a new identity is requested with: the newKey public key and a
      subject holding only the device CN. */
  function IdentityRequest(nonce: nat, newKey: KeyPair): (csr: Csr)
    requires nonce < U32_BOUND
    ensures FirstCommonName(csr.subject) == Some(Text(DeviceName(nonce)))
    ensures csr.publicKey == newKey.publicKey
  {
    SingleCommonName(DeviceName(nonce));
    Csr([Attribute(CommonName, Text(DeviceName(nonce)))], newKey.publicKey)
  }

  /** `get_or_create_identity`: reuse both files when both exist; otherwise
      request a certificate for a new key and write the key file, then the
      certificate file. `load` is the outcome of turning the PEM text into
      key and certificates: the reads and parses of the two files when they
      are reused, the parse of the received certificate once both files are
      written. */
  function GetOrCreateIdentity(disk: Disk, nonce: nat, newKey: KeyPair, ca: CaReply, keyWrite: Outcome, certWrite: Outcome, load: Outcome): (r: Provisioning)
    requires nonce < U32_BOUND
    ensures (disk.key.Some? && disk.cert.Some?) <==> r.request.None?
    ensures r.identity.Reused? <==> disk.key.Some? && disk.cert.Some? && load.Ok?
    ensures r.identity.Reused? ==> r == Provisioning(Reused(disk.key.value, disk.cert.value), disk, None)
    ensures (disk.key.Some? && disk.cert.Some? && load.Err?) ==> r == Provisioning(NoIdentity(StoredUnreadable), disk, None)
    ensures r.request.Some? ==> r.request.value == IdentityRequest(nonce, newKey)
    ensures r.disk != disk ==> ca.Answered? && IsSuccess(ca.status) && ca.body.Some? && keyWrite.Ok?
    ensures r.disk.cert != disk.cert ==> r.disk.key == Some(newKey.privatePem)
    ensures r.identity.Provisioned? <==> (r.request.Some? && ca.Answered? && IsSuccess(ca.status) && ca.body.Some? && keyWrite.Ok? && certWrite.Ok? && load.Ok?)
    ensures r.identity.Provisioned? ==> r.identity == Provisioned(newKey.privatePem, ca.body.value) && r.disk == Disk(Some(newKey.privatePem), Some(ca.body.value))
    ensures (r.request.Some? && ca.Answered? && !IsSuccess(ca.status)) ==> r == Provisioning(NoIdentity(CaRejected(ca.status)), disk, r.request)
    ensures (r.request.Some? && ca.Answered? && IsSuccess(ca.status) && ca.body.Some? && keyWrite.Ok? && certWrite.Ok? && load.Err?) ==>
              r.identity == NoIdentity(CertUnparsable) && r.disk == Disk(Some(newKey.privatePem), Some(ca.body.value))
  {
    if disk.key.Some? && disk.cert.Some? then
      if load.Err? then Provisioning(NoIdentity(StoredUnreadable), disk, None)
      else Provisioning(Reused(disk.key.value, disk.cert.value), disk, None)
    else
      var request := Some(IdentityRequest(nonce, newKey));
      match ca
      case Unreachable => Provisioning(NoIdentity(CaUnreachable), disk, request)
      case Answered(status, body) =>
        if !IsSuccess(status) then Provisioning(NoIdentity(CaRejected(status)), disk, request)
        else if body.None? then Provisioning(NoIdentity(BodyUnreadable), disk, request)
        else if keyWrite.Err? then Provisioning(NoIdentity(KeyWriteFailed), disk, request)
        else
          var keyed := disk.(key := Some(newKey.privatePem));
          if certWrite.Err? then Provisioning(NoIdentity(CertWriteFailed), keyed, request)
          else
            var written := keyed.(cert := Some(body.value));
            if load.Err? then Provisioning(NoIdentity(CertUnparsable), written, request)
            else Provisioning(Provisioned(newKey.privatePem, body.value), written, request)
  }

  /** A provisioned identity is reused on the next start, without a second
      request to the CA, when its files load. */
  lemma ProvisionedIsReused(disk: Disk, nonce: nat, newKey: KeyPair, ca: CaReply, keyWrite: Outcome, certWrite: Outcome, load: Outcome,
                            nonce2: nat, newKey2: KeyPair, ca2: CaReply, keyWrite2: Outcome, certWrite2: Outcome, load2: Outcome)
    requires nonce < U32_BOUND && nonce2 < U32_BOUND
    requires GetOrCreateIdentity(disk, nonce, newKey, ca, keyWrite, certWrite, load).identity.Provisioned?
    ensures var after := GetOrCreateIdentity(disk, nonce, newKey, ca, keyWrite, certWrite, load).disk;
            var again := GetOrCreateIdentity(after, nonce2, newKey2, ca2, keyWrite2, certWrite2, load2);
            && again.request.None?
            && (load2.Ok? ==> again.identity == Reused(newKey.privatePem, ca.body.value))
  {
  }

  /** A certificate the CA sent that does not parse is still written, and
      every later start finds both files and never contacts the CA again. */
  lemma UnparsableCertificateKept(disk: Disk, nonce: nat, newKey: KeyPair, body: string,
                                  nonce2: nat, newKey2: KeyPair, ca2: CaReply, keyWrite2: Outcome, certWrite2: Outcome, load2: Outcome)
    requires nonce < U32_BOUND && nonce2 < U32_BOUND
    requires disk.key.None? || disk.cert.None?
    ensures var first := GetOrCreateIdentity(disk, nonce, newKey, Answered(200, Some(body)), Ok, Ok, Err);
            var again := GetOrCreateIdentity(first.disk, nonce2, newKey2, ca2, keyWrite2, certWrite2, load2);
            && first.identity == NoIdentity(CertUnparsable)
            && again.request.None?
            && again.disk == first.disk
  {
  }

  /** When the key file was missing but a certificate file existed, a failed
      certificate write leaves the new key beside the old certificate, and
      the next start reuses that pair without contacting the CA. */
  lemma HalfWrittenIdentityReused(oldCert: string, nonce: nat, newKey: KeyPair, body: string, load: Outcome,
                                  nonce2: nat, newKey2: KeyPair, ca2: CaReply, keyWrite2: Outcome, certWrite2: Outcome)
    requires nonce < U32_BOUND && nonce2 < U32_BOUND
    ensures var first := GetOrCreateIdentity(Disk(None, Some(oldCert)), nonce, newKey, Answered(200, Some(body)), Ok, Err, load);
            var again := GetOrCreateIdentity(first.disk, nonce2, newKey2, ca2, keyWrite2, certWrite2, Ok);
            first.identity == NoIdentity(CertWriteFailed) && again.identity == Reused(newKey.privatePem, oldCert)
  {
  }
}

=== FILE: framing.dfy ===
/** The device client's framing: a 4-byte big-endian length (`write_u32`,
    `read_u32`) followed by that many payload bytes. The length is the
    payload length cast to `u32`, and the reader accepts any length. */
module Framing {
  import opened Bytes

  const HEADER_SIZE := 4
  const U32_LIMIT: nat := 0x1_0000_0000

  /** The value of four big-endian bytes, written out. */
  lemma FromBigEndian4(h: seq<byte>)
    requires |h| == HEADER_SIZE
    ensures FromBigEndian(h) == ((h[0] as nat * 256 + h[1] as nat) * 256 + h[2] as nat) * 256 + h[3] as nat
  {
    var h1, h2, h3 := h[..1], h[..2], h[..3];
    assert h1[..0] == [] && h2[..1] == h1 && h3[..2] == h2 && h[..3] == h3;
    assert FromBigEndian(h1) == h[0] as nat;
    assert FromBigEndian(h2) == FromBigEndian(h1) * 256 + h[1] as nat;
    assert FromBigEndian(h3) == FromBigEndian(h2) * 256 + h[2] as nat;
    assert FromBigEndian(h) == FromBigEndian(h3) * 256 + h[3] as nat;
  }

  /** `len as u32`: the length modulo 2^32. */
  function LengthField(payload: seq<byte>): (n: nat)
    ensures n < U32_LIMIT
    ensures |payload| < U32_LIMIT ==> n == |payload|
  {
    |payload| % U32_LIMIT
  }

  /** The four bytes `write_u32(n)` writes: `n` in big-endian order. */
  function Header(n: nat): (h: seq<byte>)
    requires n < U32_LIMIT
    ensures |h| == HEADER_SIZE && FromBigEndian(h) == n
  {
    var q1 := n / 256;
    var q2 := q1 / 256;
    var q3 := q2 / 256;
    var h: seq<byte> := [q3 as byte, (q2 % 256) as byte, (q1 % 256) as byte, (n % 256) as byte];
    FromBigEndian4(h);
    h
  }

  /** Any four bytes are the header of the length they announce. */
  lemma HeaderOfValue(h: seq<byte>)
    requires |h| == HEADER_SIZE
    ensures FromBigEndian(h) < U32_LIMIT
    ensures Header(FromBigEndian(h)) == h
  {
    FromBigEndian4(h);
    var v := FromBigEndian(h);
    var a, b, c, d := h[0] as nat, h[1] as nat, h[2] as nat, h[3] as nat;
    var q1, q2 := (a * 256 + b) * 256 + c, a * 256 + b;
    assert v == q1 * 256 + d;
    assert v % 256 == d && v / 256 == q1;
    assert q1 % 256 == c && q1 / 256 == q2;
    assert q2 % 256 == b && q2 / 256 == a;
    assert Header(v) == [a as byte, b as byte, c as byte, d as byte];
  }

  /** What `write_u32(len as u32)` followed by `write_all(payload)` puts on the stream. */
  function EncodeFrame(payload: seq<byte>): (frame: seq<byte>)
    ensures |frame| == HEADER_SIZE + |payload|
    ensures frame[..HEADER_SIZE] == Header(LengthField(payload))
    ensures frame[HEADER_SIZE..] == payload
  {
    Header(LengthField(payload)) + payload
  }

  /** A frame and the bytes after it, or which of the two reads ran out of input. */
  datatype FrameRead = Frame(payload: seq<byte>, rest: seq<byte>) | LengthShort | BodyShort

  /** `read_u32` then `read_exact` into a buffer of the announced length, over
      the bytes the peer sends before closing. */
  function ReadFrame(input: seq<byte>): (r: FrameRead)
    ensures r.LengthShort? <==> |input| < HEADER_SIZE
    ensures r.Frame? ==> input == EncodeFrame(r.payload) + r.rest
  {
    if |input| < HEADER_SIZE then LengthShort
    else
      var len := FromBigEndian(input[..HEADER_SIZE]);
      if |input| - HEADER_SIZE < len then BodyShort
      else
        var payload := input[HEADER_SIZE..HEADER_SIZE + len];
        HeaderOfValue(input[..HEADER_SIZE]);
        assert EncodeFrame(payload) == input[..HEADER_SIZE] + payload;
        assert input == input[..HEADER_SIZE] + payload + input[HEADER_SIZE + len..];
        Frame(payload, input[HEADER_SIZE + len..])
  }

  /** A payload shorter than 2^32 bytes reads back intact, whatever follows it. */
  lemma FrameRoundTrip(payload: seq<byte>, rest: seq<byte>)
    requires |payload| < U32_LIMIT
    ensures ReadFrame(EncodeFrame(payload) + rest) == Frame(payload, rest)
  {
    var input := EncodeFrame(payload) + rest;
    assert input[..HEADER_SIZE] == EncodeFrame(payload)[..HEADER_SIZE];
    assert input[HEADER_SIZE..HEADER_SIZE + |payload|] == payload;
    assert input[HEADER_SIZE + |payload|..] == rest;
  }

  /** From 2^32 bytes on, the cast truncates the length: the reader takes the
      first `len mod 2^32` bytes as the payload and the remainder as the
      start of the next frame. */
  lemma OversizedFrameSplits(payload: seq<byte>)
    requires |payload| >= U32_LIMIT
    ensures var n := |payload| % U32_LIMIT;
            ReadFrame(EncodeFrame(payload)) == Frame(payload[..n], payload[n..])
    ensures ReadFrame(EncodeFrame(payload)) != Frame(payload, [])
  {
    var n := |payload| % U32_LIMIT;
    var input := EncodeFrame(payload);
    assert input[HEADER_SIZE..HEADER_SIZE + n] == payload[..n];
    assert input[HEADER_SIZE + n..] == payload[n..];
  }

  /** There is no size limit: any announced length is read in full once the
      bytes arrive, 1 MiB + 1 included. */
  lemma AnyLengthAccepted(header: seq<byte>, body: seq<byte>, rest: seq<byte>)
    requires |header| == HEADER_SIZE && |body| == FromBigEndian(header)
    ensures ReadFrame(header + body + rest) == Frame(body, rest)
  {
    var input := header + body + rest;
    assert input[..HEADER_SIZE] == header;
    assert input[HEADER_SIZE..HEADER_SIZE + |body|] == body;
    assert input[HEADER_SIZE + |body|..] == rest;
  }
}

=== FILE: handlers.dfy ===
/** The library handlers of the registration server. Registration is gated on
    the certificate the CA recorded for the device; the record lives under
    `devices/info/{id}`; re-registration is answered by the heartbeat handler.
    Both handlers read and then write, with no version guard. */
module Handlers {
  import opened Optional
  import opened Records

  const UNRECOGNISED_CERTIFICATE := "Certificato non riconosciuto o non autorizzato."
  const INTERNAL_ERROR := "Errore interno."
  const REGISTRATION_COMPLETED := "Registrazione completata con successo."
  const HEARTBEAT_RECEIVED := "Heartbeat ricevuto."
  const NOT_REGISTERED := "Dispositivo non registrato."
  const CORRUPT_RECORD := "Record dispositivo corrotto."

  /** Outcomes of the store calls `handle_registration` can make, in order:
      the certificate get, the record get, then either its own put or the
      get and put of the heartbeat it delegates to. */
  datatype RegisterIo = RegisterIo(certRead: Outcome, infoRead: Outcome, write: Outcome, heartbeat: ReadWrite)

  /** The record a first registration writes. */
  function FreshRecord(id: string, now: nat): (info: DeviceInfo)
    ensures info.deviceId == id && info.status == "registered"
    ensures info.firstSeen == now && info.lastSeen == now
  {
    DeviceInfo(id, "registered", now, now)
  }

  /** `handle_heartbeat`: mark the stored record active and seen now. */
  function Heartbeat(id: string, store: Store, now: nat, io: ReadWrite): (r: Reply)
    ensures OnlyChanges(store, r.store, InfoKey(id))
    ensures r.response.status != "ok" ==> r.store == store
    ensures r.response.status == "ok" <==>
              && io.read.Ok? && io.write.Ok?
              && InfoKey(id) in store && DecodeInfo(store[InfoKey(id)]).Some?
    ensures r.response.status == "ok" ==>
              && r.response == Success(HEARTBEAT_RECEIVED)
              && InfoKey(id) in r.store
              && var before := DecodeInfo(store[InfoKey(id)]).value;
                 DecodeInfo(r.store[InfoKey(id)])
                   == Some(DeviceInfo(before.deviceId, "active", before.firstSeen, now))
    ensures io.read.Err? ==> r.response == Failure(INTERNAL_ERROR)
    ensures io.read.Ok? && InfoKey(id) !in store ==> r.response == Failure(NOT_REGISTERED)
    ensures (io.read.Ok? && InfoKey(id) in store && DecodeInfo(store[InfoKey(id)]).None?)
              ==> r.response == Failure(CORRUPT_RECORD)
    ensures (io.read.Ok? && InfoKey(id) in store && DecodeInfo(store[InfoKey(id)]).Some? && io.write.Err?)
              ==> r == Reply(Failure(INTERNAL_ERROR), store)
  {
    var key := InfoKey(id);
    if io.read.Err? then Reply(Failure(INTERNAL_ERROR), store)
    else if key !in store then Reply(Failure(NOT_REGISTERED), store)
    else match DecodeInfo(store[key])
      case None => Reply(Failure(CORRUPT_RECORD), store)
      case Some(info) =>
        var updated := info.(lastSeen := now, status := "active");
        if io.write.Err? then Reply(Failure(INTERNAL_ERROR), store)
        else Reply(Success(HEARTBEAT_RECEIVED), store[key := EncodeInfo(updated)])
  }

  /** `handle_registration`: admit only devices whose certificate the CA
      recorded; create the record on first contact, otherwise heartbeat. */
  function Register(id: string, store: Store, now: nat, io: RegisterIo): (r: Reply)
    ensures OnlyChanges(store, r.store, InfoKey(id))
    ensures r.response.status != "ok" ==> r.store == store
    ensures r.response.status == "ok" ==> CertKey(id) in store && InfoKey(id) in r.store
    ensures io.certRead.Err? ==> r == Reply(Failure(INTERNAL_ERROR), store)
    ensures (r.response == Failure(UNRECOGNISED_CERTIFICATE))
              <==> (io.certRead.Ok? && CertKey(id) !in store)
    ensures (io.certRead.Ok? && CertKey(id) in store && io.infoRead.Ok? && InfoKey(id) in store)
              ==> r == Heartbeat(id, store, now, io.heartbeat)
    ensures (io.certRead.Ok? && CertKey(id) in store && (io.infoRead.Err? || InfoKey(id) !in store))
              ==> if io.write.Ok?
                  then r == Reply(Success(REGISTRATION_COMPLETED), store[InfoKey(id) := EncodeInfo(FreshRecord(id, now))])
                  else r == Reply(Failure(INTERNAL_ERROR), store)
  {
    if io.certRead.Err? then Reply(Failure(INTERNAL_ERROR), store)
    else if CertKey(id) !in store then Reply(Failure(UNRECOGNISED_CERTIFICATE), store)
    else if io.infoRead.Ok? && InfoKey(id) in store then Heartbeat(id, store, now, io.heartbeat)
    else if io.write.Err? then Reply(Failure(INTERNAL_ERROR), store)
    else Reply(Success(REGISTRATION_COMPLETED), store[InfoKey(id) := EncodeInfo(FreshRecord(id, now))])
  }

  /** A record that obeys the device lifecycle up to time `now`: it belongs
      to `id`, is registered or active, and was first seen no later than last
      seen, which is no later than now. */
  predicate Lifecycle(store: Store, id: string, now: nat)
  {
    InfoKey(id) in store ==>
      match DecodeInfo(store[InfoKey(id)])
      case None => false
      case Some(info) =>
        && info.deviceId == id
        && info.status in {"registered", "active"}
        && info.firstSeen <= info.lastSeen <= now
  }

  /** Registration and heartbeat keep the lifecycle invariant as the clock
      advances: `last_seen` never moves backwards and `first_seen` is kept by
      every heartbeat. */
  lemma LifecyclePreserved(id: string, store: Store, now: nat, later: nat, reg: RegisterIo, hb: ReadWrite)
    requires Lifecycle(store, id, now) && now <= later
    ensures Lifecycle(Register(id, store, later, reg).store, id, later)
    ensures Lifecycle(Heartbeat(id, store, later, hb).store, id, later)
  {
  }

  /** Registering twice on a healthy store: the first call creates the
      record, the second is answered as a heartbeat, and `first_seen` keeps
      the time of the first call. */
  lemma RegisterTwice(id: string, store: Store, t1: nat, t2: nat)
    requires CertKey(id) in store && InfoKey(id) !in store
    ensures var ok := RegisterIo(Ok, Ok, Ok, ReadWrite(Ok, Ok));
            var first := Register(id, store, t1, ok);
            var second := Register(id, first.store, t2, ok);
            && first.response == Success(REGISTRATION_COMPLETED)
            && second.response == Success(HEARTBEAT_RECEIVED)
            && DecodeInfo(second.store[InfoKey(id)]) == Some(DeviceInfo(id, "active", t1, t2))
  {
    KeysSeparate(id, id);
  }

  /** A failed read of the record is taken for an absent record: a device
      that is already registered gets a fresh record and loses its
      `first_seen`. */
  lemma ReadErrorResetsFirstSeen(id: string, store: Store, now: nat, hb: ReadWrite)
    requires CertKey(id) in store && InfoKey(id) in store
    requires DecodeInfo(store[InfoKey(id)]).Some?
    ensures var r := Register(id, store, now, RegisterIo(Ok, Err, Ok, hb));
            && r.response == Success(REGISTRATION_COMPLETED)
            && DecodeInfo(r.store[InfoKey(id)]).value.firstSeen == now
  {
  }

  /** Heartbeat before registration is refused and creates nothing. */
  lemma HeartbeatRequiresRegistration(id: string, store: Store, now: nat, io: ReadWrite)
    requires InfoKey(id) !in store
    ensures Heartbeat(id, store, now, io).store == store
    ensures InfoKey(id) !in Heartbeat(id, store, now, io).store
    ensures Heartbeat(id, store, now, io).response.status == "error"
  {
  }
}

=== FILE: json.dfy ===
/** The text the server binary writes for each response:
    `serde_json::to_string(&response)` followed by a newline. The string
    escaping is serde_json's; the decoder here is the reference inverse used to
    state that the encoding loses nothing and that the reply stream splits back
    into one line per response. */
module Json {
  import opened Optional
  import opened Records

  function HexDigit(d: nat): (c: char)
    requires d < 16
  {
    "0123456789abcdef"[d]
  }

  function HexValue(c: char): Option<nat>
  {
    if '0' <= c <= '9' then Some(c as int - '0' as int)
    else if 'a' <= c <= 'f' then Some(c as int - 'a' as int + 10)
    else None
  }

  lemma HexRoundTrip(d: nat)
    requires d < 16
    ensures HexValue(HexDigit(d)) == Some(d)
  {
  }

  /** serde_json's escape of one character: quote and backslash, the five
      short control escapes, `\u00XX` with lower-case hex for the other
      control characters; everything else is copied. */
  function EscapeChar(c: char): (r: string)
    ensures |r| > 0 && '\n' !in r
  {
    if c == '"' then ['\\', '"']
    else if c == '\\' then ['\\', '\\']
    else if c == '\U{8}' then ['\\', 'b']
    else if c == '\U{C}' then ['\\', 'f']
    else if c == '\n' then ['\\', 'n']
    else if c == '\r' then ['\\', 'r']
    else if c == '\t' then ['\\', 't']
    else if c < ' ' then ['\\', 'u', '0', '0', HexDigit(c as int / 16), HexDigit(c as int % 16)]
    else [c]
  }

  function Escape(s: string): (r: string)
    ensures '\n' !in r
  {
    if |s| == 0 then "" else EscapeChar(s[0]) + Escape(s[1..])
  }

  /** The character a two-character escape `\e` stands for. */
  function ShortEscape(e: char): Option<char>
  {
    if e == '"' then Some('"')
    else if e == '\\' then Some('\\')
    else if e == 'b' then Some('\U{8}')
    else if e == 'f' then Some('\U{C}')
    else if e == 'n' then Some('\n')
    else if e == 'r' then Some('\r')
    else if e == 't' then Some('\t')
    else None
  }

  function Prepend(c: char, p: Option<(string, string)>): Option<(string, string)>
  {
    match p
    case None => None
    case Some((body, after)) => Some(([c] + body, after))
  }

  /** Reads the body of a JSON string whose opening quote is already
      consumed: the unescaped text and what follows the closing quote. */
  function ParseString(s: string): Option<(string, string)>
    decreases |s|
  {
    if |s| == 0 then None
    else if s[0] == '"' then Some(("", s[1..]))
    else if s[0] == '\\' then
      if |s| < 2 then None
      else if s[1] == 'u' then
        if |s| < 6 || s[2] != '0' || s[3] != '0' then None
        else match (HexValue(s[4]), HexValue(s[5]))
          case (Some(h), Some(l)) =>
            if h < 16 && l < 16 then Prepend((h * 16 + l) as char, ParseString(s[6..])) else None
          case _ => None
      else match ShortEscape(s[1])
        case None => None
        case Some(c) => Prepend(c, ParseString(s[2..]))
    else if s[0] < ' ' then None
    else Prepend(s[0], ParseString(s[1..]))
  }

  lemma EscapeCharParses(c: char, tail: string)
    ensures ParseString(EscapeChar(c) + tail) == Prepend(c, ParseString(tail))
  {
    var e := EscapeChar(c);
    if c == '"' || c == '\\' || c == '\U{8}' || c == '\U{C}' || c == '\n' || c == '\r' || c == '\t' {
      assert (e + tail)[2..] == tail;
    } else if c < ' ' {
      var h := c as int / 16;
      var l := c as int % 16;
      HexRoundTrip(h);
      HexRoundTrip(l);
      assert (e + tail)[6..] == tail;
      assert (h * 16 + l) as char == c;
    } else {
      assert (e + tail)[1..] == tail;
    }
  }

  /** The escaped text, closed by a quote, reads back as the original. */
  lemma {:induction false} EscapeRoundTrip(s: string, rest: string)
    ensures ParseString(Escape(s) + "\"" + rest) == Some((s, rest))
    decreases |s|
  {
    if |s| == 0 {
      assert Escape(s) + "\"" + rest == "\"" + rest;
      assert ("\"" + rest)[1..] == rest;
    } else {
      var tail := Escape(s[1..]) + "\"" + rest;
      assert Escape(s) + "\"" + rest == EscapeChar(s[0]) + tail;
      EscapeCharParses(s[0], tail);
      EscapeRoundTrip(s[1..], rest);
      assert [s[0]] + s[1..] == s;
    }
  }

  const STATUS_OPEN := "{\"status\":\""
  const MESSAGE_OPEN := ",\"message\":\""

  /** `serde_json::to_string` of a `CommandResponse`: compact, fields in
      declaration order. */
  function EncodeResponse(r: Response): (text: string)
    ensures '\n' !in text
  {
    STATUS_OPEN + Escape(r.status) + "\"" + MESSAGE_OPEN + Escape(r.message) + "\"}"
  }

  /** The text after `prefix`, when `s` starts with it. */
  function StripPrefix(prefix: string, s: string): (r: Option<string>)
    ensures r.Some? ==> s == prefix + r.value
  {
    if |prefix| <= |s| && s[..|prefix|] == prefix then Some(s[|prefix|..]) else None
  }

  lemma StripPrefixOf(prefix: string, x: string)
    ensures StripPrefix(prefix, prefix + x) == Some(x)
  {
    assert (prefix + x)[..|prefix|] == prefix;
    assert (prefix + x)[|prefix|..] == x;
  }

  /** A reader of the compact object `{"status":…,"message":…}`, the partner
      of `EncodeResponse`. */
  function DecodeResponse(text: string): Option<Response>
  {
    match StripPrefix(STATUS_OPEN, text)
    case None => None
    case Some(afterOpen) =>
      match ParseString(afterOpen)
      case None => None
      case Some((status, rest)) =>
        match StripPrefix(MESSAGE_OPEN, rest)
        case None => None
        case Some(afterKey) =>
          match ParseString(afterKey)
          case None => None
          case Some((message, after)) => if after == "}" then Some(Response(status, message)) else None
  }

  /** The response text reads back as the response: distinct responses are
      written differently. */
  lemma ResponseRoundTrip(r: Response)
    ensures DecodeResponse(EncodeResponse(r)) == Some(r)
  {
    var msg := Escape(r.message) + "\"" + "}";
    var tail := MESSAGE_OPEN + msg;
    var body := Escape(r.status) + "\"" + tail;
    assert EncodeResponse(r) == STATUS_OPEN + body;
    StripPrefixOf(STATUS_OPEN, body);
    EscapeRoundTrip(r.status, tail);
    StripPrefixOf(MESSAGE_OPEN, msg);
    EscapeRoundTrip(r.message, "}");
  }

  /** Everything written on a connection: each response followed by a newline. */
  function Wire(rs: seq<Response>): string
  {
    if |rs| == 0 then "" else EncodeResponse(rs[0]) + "\n" + Wire(rs[1..])
  }

  function NewlineIndex(s: string): (i: nat)
    ensures i <= |s|
    ensures i < |s| ==> s[i] == '\n'
    ensures forall j :: 0 <= j < i ==> s[j] != '\n'
  {
    if |s| == 0 || s[0] == '\n' then 0 else 1 + NewlineIndex(s[1..])
  }

  /** Newline-terminated lines, as a reader calling `read_line` sees them
      (without their terminators). */
  function Lines(s: string): seq<string>
    decreases |s|
  {
    if |s| == 0 then []
    else
      var i := NewlineIndex(s);
      if i == |s| then [s] else [s[..i]] + Lines(s[i + 1..])
  }

  lemma LinesCons(x: string, y: string)
    requires '\n' !in x
    ensures Lines(x + "\n" + y) == [x] + Lines(y)
  {
    var s := x + "\n" + y;
    assert s[|x|] == '\n';
    assert forall j :: 0 <= j < |x| ==> s[j] == x[j];
    assert NewlineIndex(s) == |x|;
    assert s[..|x|] == x;
    assert s[|x| + 1..] == y;
  }

  function EncodeAll(rs: seq<Response>): (lines: seq<string>)
    ensures |lines| == |rs|
    ensures forall i :: 0 <= i < |rs| ==> lines[i] == EncodeResponse(rs[i])
  {
    if |rs| == 0 then [] else [EncodeResponse(rs[0])] + EncodeAll(rs[1..])
  }

  /** The reply stream splits into exactly one line per response, in order,
      and each line decodes to its response. */
  lemma {:induction false} WireSplitsIntoResponses(rs: seq<Response>)
    ensures Lines(Wire(rs)) == EncodeAll(rs)
    ensures |Lines(Wire(rs))| == |rs|
    ensures forall i :: 0 <= i < |rs| ==> DecodeResponse(Lines(Wire(rs))[i]) == Some(rs[i])
    decreases |rs|
  {
    if |rs| > 0 {
      WireSplitsIntoResponses(rs[1..]);
      LinesCons(EncodeResponse(rs[0]), Wire(rs[1..]));
    }
    forall i | 0 <= i < |rs|
      ensures DecodeResponse(EncodeAll(rs)[i]) == Some(rs[i])
    {
      ResponseRoundTrip(rs[i]);
    }
  }
}

=== FILE: optional.dfy ===
/** The optional value used wherever the source returns `Option<T>` or a
    fallible conversion whose error carries no information the model needs. */
module Optional {

  datatype Option<+T> = None | Some(value: T)
}

=== FILE: provisioning.dfy ===
/** How the pieces meet: the name a device gives itself, the certificate
    the CA issues and records for it, the identity the registration server
    reads off that certificate, and the certificate gate of the library
    registration handler. */
module Provisioning {
  import opened Optional
  import opened Text
  import opened Records
  import opened X509
  import Device
  import Ca
  import Session
  import Handlers

  /** No device name begins with the sentinel prefix, so the gate admits
      every provisioned device. */
  lemma DeviceNameAdmitted(nonce: nat)
    requires nonce < Device.U32_BOUND
    ensures Session.Admitted(Device.DeviceName(nonce))
  {
    var name := Device.DeviceName(nonce);
    assert name[0] == 'd' && Session.UNKNOWN_DEVICE[0] == 'u';
  }

  /** The CA names the certificate after the CN the device chose. */
  lemma CaNamesDevice(nonce: nat, key: Device.KeyPair)
    requires nonce < Device.U32_BOUND
    ensures Ca.DeviceId(Device.IdentityRequest(nonce, key)) == Some(Device.DeviceName(nonce))
  {
  }

  /** A device's signing request, once the store write succeeds, yields a
      certificate whose peer identity on the registration server is the
      device's name; the certificate is recorded under that same name. */
  lemma IssuedCertificateIdentifiesDevice(ca: Ca.Authority, pem: string, parse: string -> Ca.PemParse,
                                          now: nat, random: nat, store: Store, nonce: nat, key: Device.KeyPair)
    requires nonce < Device.U32_BOUND
    requires parse(pem) == Ca.ParsedCsr(Device.IdentityRequest(nonce, key))
    ensures var issued := Ca.SignCsr(ca, pem, parse, now, random, Ok, store);
            var name := Device.DeviceName(nonce);
            && issued.answer.Issued?
            && Session.PeerIdentity(Some([Session.Parsed(issued.answer.cert)])) == Some(name)
            && Session.Admitted(name)
            && CertKey(name) in issued.store
  {
    CaNamesDevice(nonce, key);
    DeviceNameAdmitted(nonce);
  }

  /** After issuance, the library registration handler recognises the
      device: with every store call succeeding and no record yet, the
      first registration completes. */
  lemma IssuedDeviceRegisters(ca: Ca.Authority, pem: string, parse: string -> Ca.PemParse,
                              now: nat, random: nat, store: Store, nonce: nat, key: Device.KeyPair,
                              later: nat, io: Handlers.RegisterIo)
    requires nonce < Device.U32_BOUND
    requires parse(pem) == Ca.ParsedCsr(Device.IdentityRequest(nonce, key))
    requires io.certRead.Ok? && io.infoRead.Ok? && io.write.Ok?
    requires InfoKey(Device.DeviceName(nonce)) !in store
    ensures var issued := Ca.SignCsr(ca, pem, parse, now, random, Ok, store);
            var registered := Handlers.Register(Device.DeviceName(nonce), issued.store, later, io);
            registered.response == Success(Handlers.REGISTRATION_COMPLETED)
  {
    var name := Device.DeviceName(nonce);
    CaNamesDevice(nonce, key);
    KeysSeparate(name, name);
    var issued := Ca.SignCsr(ca, pem, parse, now, random, Ok, store);
    assert issued.store == store[CertKey(name) := CertPem(issued.answer.cert)];
    assert InfoKey(name) !in issued.store;
  }

  /** Without a recorded certificate the library handler refuses a device,
      whatever name its certificate carries. */
  lemma UnissuedDeviceRefused(id: string, store: Store, now: nat, io: Handlers.RegisterIo)
    requires io.certRead.Ok? && CertKey(id) !in store
    ensures Handlers.Register(id, store, now, io) == Reply(Failure(Handlers.UNRECOGNISED_CERTIFICATE), store)
  {
  }
}

=== FILE: records.dfy ===
/** Shared record types of the registration server (`CommandResponse`,
    `DeviceInfo`), the key-value store as the handlers see it, and the key
    layouts both server variants and the CA write to. */
module Records {
  import opened Optional
  import opened Bytes
  import X509

  /** Result of one store RPC: success, or an error of any cause. */
  datatype Outcome = Ok | Err

  /** Outcomes of a handler's one get and, when it reaches it, its one put. */
  datatype ReadWrite = ReadWrite(read: Outcome, write: Outcome)

  datatype Response = Response(status: string, message: string)

  function Success(message: string): Response { Response("ok", message) }

  function Failure(message: string): Response { Response("error", message) }

  /** What a handler returns: its response and the store after its writes. */
  datatype Reply = Reply(response: Response, store: Store)

  /** A device record; timestamps are instants of the store clock. */
  datatype DeviceInfo = DeviceInfo(deviceId: string, status: string, firstSeen: nat, lastSeen: nat)

  /** A stored value. Serialisation is abstract: a JSON-serialised device
      record, a PEM-encoded certificate, or bytes that are neither. */
  datatype Value = InfoJson(info: DeviceInfo) | CertPem(cert: X509.Certificate) | Opaque(bytes: seq<byte>)

  type Store = map<string, Value>

  /** `serde_json::to_string` of a device record. */
  function EncodeInfo(info: DeviceInfo): (v: Value)
    ensures DecodeInfo(v) == Some(info)
  {
    InfoJson(info)
  }

  /** `serde_json::from_slice::<DeviceInfo>`: fails on anything that is not a
      serialised record. */
  function DecodeInfo(v: Value): Option<DeviceInfo>
  {
    if v.InfoJson? then Some(v.info) else None
  }

  /** Whatever decodes is the encoding of what it decodes to. */
  lemma DecodeInfoInverse(v: Value)
    ensures DecodeInfo(v).Some? ==> EncodeInfo(DecodeInfo(v).value) == v
  {
  }

  const DEVICES_PREFIX := "devices/"
  const INFO_PREFIX := "devices/info/"
  const CERTIFICATES_PREFIX := "devices/certificates/"

  /** Where the library handlers keep a device's record. */
  function InfoKey(id: string): string { INFO_PREFIX + id }

  /** Where the CA records the certificate it issued for a device. */
  function CertKey(id: string): string { CERTIFICATES_PREFIX + id }

  /** Where the server binary keeps a device's record. */
  function DeviceKey(id: string): string { DEVICES_PREFIX + id }

  lemma PrefixedInjective(p: string, a: string, b: string)
    requires p + a == p + b
    ensures a == b
  {
    assert a == (p + a)[|p|..];
    assert b == (p + b)[|p|..];
  }

  /** Each layout gives distinct devices distinct keys, and the record and
      certificate namespaces of the library layout never meet. */
  lemma KeysSeparate(a: string, b: string)
    ensures InfoKey(a) == InfoKey(b) ==> a == b
    ensures CertKey(a) == CertKey(b) ==> a == b
    ensures DeviceKey(a) == DeviceKey(b) ==> a == b
    ensures InfoKey(a) != CertKey(b)
  {
    if InfoKey(a) == InfoKey(b) { PrefixedInjective(INFO_PREFIX, a, b); }
    if CertKey(a) == CertKey(b) { PrefixedInjective(CERTIFICATES_PREFIX, a, b); }
    if DeviceKey(a) == DeviceKey(b) { PrefixedInjective(DEVICES_PREFIX, a, b); }
    assert InfoKey(a)[8] == 'i' && CertKey(b)[8] == 'c';
  }

  /** The binary's layout is not separated from the other two: the device
      named "info/x" reads and writes the library record of "x", and the
      device named "certificates/x" the certificate the CA issued to "x". */
  lemma DeviceKeyAliases(x: string)
    ensures DeviceKey("info/" + x) == InfoKey(x)
    ensures DeviceKey("certificates/" + x) == CertKey(x)
  {
    assert DEVICES_PREFIX + ("info/" + x) == INFO_PREFIX + x;
    assert DEVICES_PREFIX + ("certificates/" + x) == CERTIFICATES_PREFIX + x;
  }

  /** `after` differs from `before` at most at `key`. */
  predicate OnlyChanges(before: Store, after: Store, key: string)
  {
    && after.Keys <= before.Keys + {key}
    && forall k :: k in before && k != key ==> k in after && after[k] == before[k]
  }

  lemma OnlyChangesTransitive(a: Store, b: Store, c: Store, key: string)
    requires OnlyChanges(a, b, key) && OnlyChanges(b, c, key)
    ensures OnlyChanges(a, c, key)
  {
  }
}

=== FILE: server.dfy ===
/** The handlers the server binary defines for itself. The record lives under
    `devices/{id}` and no certificate record is consulted; re-registration is
    answered without writing. */
module Server {
  import opened Optional
  import opened Records

  const SERVER_ERROR := "Errore interno del server."
  const INTERNAL_ERROR := "Errore interno."
  const ALREADY_REGISTERED := "Dispositivo gi\U{E0} registrato."
  const REGISTRATION_COMPLETED := "Registrazione completata con successo."
  const HEARTBEAT_RECEIVED := "Heartbeat ricevuto."
  const NOT_REGISTERED := "Dispositivo non registrato."

  /** The stored value of the device, if any, deserialises: the heartbeat
      handler unwraps the deserialisation and would panic otherwise. */
  predicate Healthy(store: Store, id: string)
  {
    DeviceKey(id) in store ==> DecodeInfo(store[DeviceKey(id)]).Some?
  }

  /** `handle_registration`: create the record unless the key already holds
      something. */
  function Register(id: string, store: Store, now: nat, io: ReadWrite): (r: Reply)
    ensures OnlyChanges(store, r.store, DeviceKey(id))
    ensures Healthy(store, id) ==> Healthy(r.store, id)
    ensures io.read.Err? ==> r == Reply(Failure(SERVER_ERROR), store)
    ensures (io.read.Ok? && DeviceKey(id) in store) ==> r == Reply(Success(ALREADY_REGISTERED), store)
    ensures (io.read.Ok? && DeviceKey(id) !in store && io.write.Err?) ==> r == Reply(Failure(SERVER_ERROR), store)
    ensures r.store != store <==> io.read.Ok? && io.write.Ok? && DeviceKey(id) !in store
    ensures r.store != store ==>
              && r.response == Success(REGISTRATION_COMPLETED)
              && DeviceKey(id) in r.store
              && DecodeInfo(r.store[DeviceKey(id)]) == Some(DeviceInfo(id, "registered", now, now))
  {
    var key := DeviceKey(id);
    if io.read.Err? then Reply(Failure(SERVER_ERROR), store)
    else if key in store then Reply(Success(ALREADY_REGISTERED), store)
    else if io.write.Err? then Reply(Failure(SERVER_ERROR), store)
    else Reply(Success(REGISTRATION_COMPLETED), store[key := EncodeInfo(DeviceInfo(id, "registered", now, now))])
  }

  /** `handle_heartbeat`: mark the stored record active and seen now. */
  function Heartbeat(id: string, store: Store, now: nat, io: ReadWrite): (r: Reply)
    requires Healthy(store, id)
    ensures OnlyChanges(store, r.store, DeviceKey(id))
    ensures Healthy(r.store, id)
    ensures r.response.status != "ok" ==> r.store == store
    ensures r.response.status == "ok" <==> io.read.Ok? && io.write.Ok? && DeviceKey(id) in store
    ensures r.response.status == "ok" ==>
              && r.response == Success(HEARTBEAT_RECEIVED)
              && DeviceKey(id) in r.store
              && var before := DecodeInfo(store[DeviceKey(id)]).value;
                 DecodeInfo(r.store[DeviceKey(id)])
                   == Some(DeviceInfo(before.deviceId, "active", before.firstSeen, now))
    ensures io.read.Err? ==> r.response == Failure(INTERNAL_ERROR)
    ensures (io.read.Ok? && DeviceKey(id) !in store) ==> r.response == Failure(NOT_REGISTERED)
    ensures (io.read.Ok? && DeviceKey(id) in store && io.write.Err?) ==> r == Reply(Failure(INTERNAL_ERROR), store)
  {
    var key := DeviceKey(id);
    if io.read.Err? then Reply(Failure(INTERNAL_ERROR), store)
    else if key in store then
      var info := DecodeInfo(store[key]).value;
      var updated := info.(lastSeen := now, status := "active");
      if io.write.Err? then Reply(Failure(INTERNAL_ERROR), store)
      else Reply(Success(HEARTBEAT_RECEIVED), store[key := EncodeInfo(updated)])
    else Reply(Failure(NOT_REGISTERED), store)
  }

  /** Registering twice: the second call reports the device as already
      registered and writes nothing, so `first_seen` stays that of the first. */
  lemma RegisterTwice(id: string, store: Store, t1: nat, t2: nat, io: ReadWrite)
    requires DeviceKey(id) !in store
    ensures var ok := ReadWrite(Ok, Ok);
            var first := Register(id, store, t1, ok);
            var second := Register(id, first.store, t2, io);
            && first.response == Success(REGISTRATION_COMPLETED)
            && (io.read.Ok? ==> second.response == Success(ALREADY_REGISTERED))
            && second.store == first.store
            && DecodeInfo(second.store[DeviceKey(id)]).value.firstSeen == t1
  {
  }
}

=== FILE: session.dfy ===
/** One connection of the server binary: the identity taken from the peer
    certificate once, at handshake, and the loop that answers each received
    line with exactly one response line, always on behalf of that identity. */
module Session {
  import opened Optional
  import opened Text
  import opened Records
  import X509
  import Server

  const UNKNOWN_DEVICE := "unknown-device"
  const UNKNOWN_PARSING_FAILED := "unknown-device-parsing-failed"
  const UNKNOWN_NO_CERT := "unknown-device-no-cert"
  const UNSUPPORTED_COMMAND := "Comando non supportato"
  const INVALID_JSON := "Comando JSON non valido"

  /** A certificate of the peer's chain, as x509-parser sees its DER. */
  datatype PeerCertificate = Parsed(cert: X509.Certificate) | Unparsable

  /** The identity of the session, from the peer certificates the TLS session
      holds (`None` when it holds none). The result is `None` when the connection task
      panics: a first common name that is not text is unwrapped. */
  function PeerIdentity(peer: Option<seq<PeerCertificate>>): (r: Option<string>)
    ensures (peer.None? || |peer.value| == 0) ==> r == Some(UNKNOWN_NO_CERT)
    ensures (peer.Some? && |peer.value| > 0 && peer.value[0].Unparsable?) ==> r == Some(UNKNOWN_PARSING_FAILED)
    ensures (peer.Some? && |peer.value| > 0 && peer.value[0].Parsed?
             && X509.FirstCommonName(peer.value[0].cert.subject).None?) ==> r == Some(UNKNOWN_DEVICE)
    ensures r.Some? && !StartsWith(r.value, UNKNOWN_DEVICE) ==>
              && peer.Some? && |peer.value| > 0 && peer.value[0].Parsed?
              && X509.FirstCommonName(peer.value[0].cert.subject) == Some(X509.Text(r.value))
    ensures (peer.Some? && |peer.value| > 0 && peer.value[0].Parsed?
             && X509.FirstCommonName(peer.value[0].cert.subject).Some?) ==>
              var cn := X509.FirstCommonName(peer.value[0].cert.subject).value;
              && (cn.Text? ==> r == Some(cn.text))
              && (!cn.Text? ==> r.None?)
  {
    match peer
    case None => Some(UNKNOWN_NO_CERT)
    case Some(certs) =>
      if |certs| == 0 then Some(UNKNOWN_NO_CERT)
      else match certs[0]
        case Unparsable => Some(UNKNOWN_PARSING_FAILED)
        case Parsed(cert) =>
          match X509.FirstCommonName(cert.subject)
          case None => Some(UNKNOWN_DEVICE)
          case Some(cn) => if cn.Text? then Some(cn.text) else None
  }

  /** The gate of `handle_new_connection`: every identity with the sentinel
      prefix is turned away, a genuine common name included. */
  predicate Admitted(id: string)
    ensures Admitted(id) <==> !(UNKNOWN_DEVICE <= id)
  {
    !StartsWith(id, UNKNOWN_DEVICE)
  }

  /** The three sentinels are refused, and so is a real device whose common
      name happens to begin with the sentinel. */
  lemma SentinelsRefused()
    ensures !Admitted(UNKNOWN_DEVICE)
    ensures !Admitted(UNKNOWN_PARSING_FAILED)
    ensures !Admitted(UNKNOWN_NO_CERT)
    ensures !Admitted("unknown-device-42")
  {
    assert UNKNOWN_PARSING_FAILED[..|UNKNOWN_DEVICE|] == UNKNOWN_DEVICE;
    assert UNKNOWN_NO_CERT[..|UNKNOWN_DEVICE|] == UNKNOWN_DEVICE;
    assert "unknown-device-42"[..|UNKNOWN_DEVICE|] == UNKNOWN_DEVICE;
  }

  /** `CommandRequest`: the only field a request carries. */
  datatype Request = Request(command: string)

  /** What the loop makes of one trimmed line. */
  datatype Command = RegisterCommand | HeartbeatCommand | Unsupported(name: string) | Malformed

  /** `decoded` is the result of `serde_json::from_str::<CommandRequest>`. */
  function Classify(decoded: Option<Request>): (c: Command)
    ensures c == RegisterCommand <==> decoded == Some(Request("REGISTER"))
    ensures c == HeartbeatCommand <==> decoded == Some(Request("HEARTBEAT"))
    ensures c == Malformed <==> decoded.None?
  {
    match decoded
    case None => Malformed
    case Some(req) =>
      if req.command == "REGISTER" then RegisterCommand
      else if req.command == "HEARTBEAT" then HeartbeatCommand
      else Unsupported(req.command)
  }

  /** The response to one command, on behalf of the session identity `id`. */
  function Dispatch(id: string, c: Command, store: Store, now: nat, io: ReadWrite): (r: Reply)
    requires Server.Healthy(store, id)
    ensures OnlyChanges(store, r.store, DeviceKey(id))
    ensures Server.Healthy(r.store, id)
    ensures Known(r.response)
    ensures c.Unsupported? ==> r == Reply(Failure(UNSUPPORTED_COMMAND), store)
    ensures c.Malformed? ==> r == Reply(Failure(INVALID_JSON), store)
    ensures c.RegisterCommand? ==> r == Server.Register(id, store, now, io)
    ensures c.HeartbeatCommand? ==> r == Server.Heartbeat(id, store, now, io)
  {
    match c
    case RegisterCommand => Server.Register(id, store, now, io)
    case HeartbeatCommand => Server.Heartbeat(id, store, now, io)
    case Unsupported(_) => Reply(Failure(UNSUPPORTED_COMMAND), store)
    case Malformed => Reply(Failure(INVALID_JSON), store)
  }

  /** What `read_line` returned: the bytes of one line (none at end of
      stream), or an error. */
  datatype ReadResult = Received(text: string) | ReadFailed

  /** One iteration of the loop: what the read returned, the clock, the
      outcomes of the store calls and whether writing the response worked. */
  datatype Turn = Turn(read: ReadResult, now: nat, io: ReadWrite, delivered: bool)

  /** The responses the device received and the store afterwards. */
  datatype Transcript = Transcript(responses: seq<Response>, store: Store)

  /** A turn that yields a line and delivers its response. */
  predicate Live(turn: Turn)
  {
    turn.read.Received? && |turn.read.text| > 0 && turn.delivered
  }

  /** The responses the server can ever send. */
  predicate Known(r: Response)
  {
    r in {
      Success(Server.ALREADY_REGISTERED), Success(Server.REGISTRATION_COMPLETED),
      Success(Server.HEARTBEAT_RECEIVED), Failure(Server.SERVER_ERROR),
      Failure(Server.INTERNAL_ERROR), Failure(Server.NOT_REGISTERED),
      Failure(UNSUPPORTED_COMMAND), Failure(INVALID_JSON)
    }
  }

  /** The command loop of `handle_commands`, over the turns the connection
      lives through; `decode` is the JSON parser of requests. */
  function Serve(id: string, turns: seq<Turn>, store: Store, decode: string -> Option<Request>): (t: Transcript)
    requires Server.Healthy(store, id)
    ensures OnlyChanges(store, t.store, DeviceKey(id))
    ensures Server.Healthy(t.store, id)
    ensures |t.responses| <= |turns|
    ensures forall i :: 0 <= i < |t.responses| ==> Known(t.responses[i])
    ensures forall i :: 0 <= i < |t.responses| ==> Live(turns[i])
    ensures |turns| > 0 && (turns[0].read.ReadFailed? || turns[0].read == Received("")) ==> t == Transcript([], store)
    ensures |turns| > 0 && turns[0].read.Received? && turns[0].read != Received("") && !turns[0].delivered ==>
              t == Transcript([], Answer(id, turns[0], store, decode).store)
    decreases |turns|
  {
    if |turns| == 0 then Transcript([], store)
    else
      var turn := turns[0];
      match turn.read
      case ReadFailed => Transcript([], store)
      case Received(text) =>
        if |text| == 0 then Transcript([], store)
        else
          var reply := Answer(id, turn, store, decode);
          if !turn.delivered then Transcript([], reply.store)
          else
            var rest := Serve(id, turns[1..], reply.store, decode);
            AnsweredTurn(id, turns, store, reply, rest);
            Transcript([reply.response] + rest.responses, rest.store)
  }

  /** One answered line in front of the rest of the session keeps what
      `Serve` promises. */
  lemma AnsweredTurn(id: string, turns: seq<Turn>, store: Store, reply: Reply, rest: Transcript)
    requires |turns| > 0 && Live(turns[0]) && Known(reply.response)
    requires OnlyChanges(store, reply.store, DeviceKey(id)) && OnlyChanges(reply.store, rest.store, DeviceKey(id))
    requires |rest.responses| <= |turns| - 1
    requires forall i :: 0 <= i < |rest.responses| ==> Known(rest.responses[i])
    requires forall i :: 0 <= i < |rest.responses| ==> Live(turns[1..][i])
    ensures var t := Transcript([reply.response] + rest.responses, rest.store);
            && OnlyChanges(store, t.store, DeviceKey(id))
            && |t.responses| <= |turns|
            && (forall i :: 0 <= i < |t.responses| ==> Known(t.responses[i]))
            && (forall i :: 0 <= i < |t.responses| ==> Live(turns[i]))
  {
    OnlyChangesTransitive(store, reply.store, rest.store, DeviceKey(id));
    var responses := [reply.response] + rest.responses;
    forall i | 1 <= i < |responses|
      ensures Known(responses[i]) && Live(turns[i])
    {
      assert responses[i] == rest.responses[i - 1];
      assert turns[i] == turns[1..][i - 1];
    }
  }

  /** A connection from handshake to close. */
  function Connect(peer: Option<seq<PeerCertificate>>, turns: seq<Turn>, store: Store, decode: string -> Option<Request>): (t: Transcript)
    requires PeerIdentity(peer).Some? && Admitted(PeerIdentity(peer).value) ==> Server.Healthy(store, PeerIdentity(peer).value)
    ensures t.store != store || |t.responses| > 0 ==>
              && PeerIdentity(peer).Some? && Admitted(PeerIdentity(peer).value)
              && OnlyChanges(store, t.store, DeviceKey(PeerIdentity(peer).value))
    ensures (PeerIdentity(peer).None? || !Admitted(PeerIdentity(peer).value)) ==> t == Transcript([], store)
    ensures PeerIdentity(peer).Some? && Admitted(PeerIdentity(peer).value) ==>
              t == Serve(PeerIdentity(peer).value, turns, store, decode)
  {
    match PeerIdentity(peer)
    case None => Transcript([], store)
    case Some(id) => if Admitted(id) then Serve(id, turns, store, decode) else Transcript([], store)
  }

  /** The reply one turn's line produces. */
  function Answer(id: string, turn: Turn, store: Store, decode: string -> Option<Request>): (r: Reply)
    requires Server.Healthy(store, id)
    requires turn.read.Received?
    ensures Known(r.response)
    ensures OnlyChanges(store, r.store, DeviceKey(id))
    ensures Server.Healthy(r.store, id)
  {
    Dispatch(id, Classify(decode(Trim(turn.read.text))), store, turn.now, turn.io)
  }

  /** Which reply a received line gets, from the request decoded from its
      trimmed text. */
  lemma AnswerRoutes(id: string, turn: Turn, store: Store, decode: string -> Option<Request>)
    requires Server.Healthy(store, id)
    requires turn.read.Received?
    ensures var request := decode(Trim(turn.read.text));
            var r := Answer(id, turn, store, decode);
            && (request.None? ==> r == Reply(Failure(INVALID_JSON), store))
            && (request == Some(Request("REGISTER")) ==> r == Server.Register(id, store, turn.now, turn.io))
            && (request == Some(Request("HEARTBEAT")) ==> r == Server.Heartbeat(id, store, turn.now, turn.io))
            && (request.Some? && request.value.command !in {"REGISTER", "HEARTBEAT"} ==> r == Reply(Failure(UNSUPPORTED_COMMAND), store))
  {
  }

  /** Each live turn is answered by exactly one response, and the loop goes
      on after an error: when every turn is live, there are as many responses
      as turns, and the first answers the first line (`ServeStep` gives the
      rest). */
  lemma {:induction false} OneResponsePerLine(id: string, turns: seq<Turn>, store: Store, decode: string -> Option<Request>)
    requires Server.Healthy(store, id)
    requires forall i :: 0 <= i < |turns| ==> Live(turns[i])
    ensures |Serve(id, turns, store, decode).responses| == |turns|
    ensures |turns| > 0 ==> Serve(id, turns, store, decode).responses[0] == Answer(id, turns[0], store, decode).response
    decreases |turns|
  {
    if |turns| > 0 {
      var reply := Answer(id, turns[0], store, decode);
      OneResponsePerLine(id, turns[1..], reply.store, decode);
    }
  }

  /** The loop is sequential: serving `first + second`, where every turn of
      `first` is live, is serving `first` and then `second` from the store
      `first` left behind. */
  lemma {:induction false} ServeSequential(id: string, first: seq<Turn>, second: seq<Turn>, store: Store, decode: string -> Option<Request>)
    requires Server.Healthy(store, id)
    requires forall i :: 0 <= i < |first| ==> Live(first[i])
    ensures var a := Serve(id, first, store, decode);
            var b := Serve(id, second, a.store, decode);
            Serve(id, first + second, store, decode) == Transcript(a.responses + b.responses, b.store)
    decreases |first|
  {
    if |first| == 0 {
      assert first + second == second;
    } else {
      ConsSplit(first, second);
      var reply := Answer(id, first[0], store, decode);
      ServeSequential(id, first[1..], second, reply.store, decode);
      var a' := Serve(id, first[1..], reply.store, decode);
      var b := Serve(id, second, a'.store, decode);
      PrependAssoc(reply.response, a'.responses, b.responses);
    }
  }

  lemma ConsSplit<T>(first: seq<T>, second: seq<T>)
    requires |first| > 0
    ensures (first + second)[0] == first[0]
    ensures (first + second)[1..] == first[1..] + second
  {
  }

  lemma PrependAssoc<T>(x: T, a: seq<T>, b: seq<T>)
    ensures [x] + (a + b) == ([x] + a) + b
  {
  }

  /** An unsupported or malformed command is answered with an error, writes
      nothing, and the loop carries on with the next line. */
  lemma ErrorsContinue(id: string, turns: seq<Turn>, store: Store, decode: string -> Option<Request>)
    requires Server.Healthy(store, id)
    requires |turns| > 0 && Live(turns[0])
    requires Classify(decode(Trim(turns[0].read.text))) !in {RegisterCommand, HeartbeatCommand}
    ensures var rest := Serve(id, turns[1..], store, decode);
            var message := if decode(Trim(turns[0].read.text)).None? then INVALID_JSON else UNSUPPORTED_COMMAND;
            Serve(id, turns, store, decode) == Transcript([Failure(message)] + rest.responses, rest.store)
  {
  }

  /** A response that cannot be written ends the loop, but the store write
      that preceded it stands: a device can be registered without ever
      hearing so. */
  lemma UndeliveredRegistrationStands(id: string, line: string, store: Store, now: nat, decode: string -> Option<Request>)
    requires DeviceKey(id) !in store
    requires |line| > 0 && decode(Trim(line)) == Some(Request("REGISTER"))
    ensures var turn := Turn(Received(line), now, ReadWrite(Ok, Ok), false);
            var t := Serve(id, [turn], store, decode);
            && t.responses == []
            && DeviceKey(id) in t.store
            && DecodeInfo(t.store[DeviceKey(id)]) == Some(DeviceInfo(id, "registered", now, now))
  {
  }

  /** Identity binding: whatever lines a session of device `a` receives, the
      record of any other device `b` is left as it was. */
  lemma SessionsIsolated(a: string, b: string, turns: seq<Turn>, store: Store, decode: string -> Option<Request>)
    requires Server.Healthy(store, a) && a != b
    ensures var t := Serve(a, turns, store, decode);
            && (DeviceKey(b) in t.store <==> DeviceKey(b) in store)
            && (DeviceKey(b) in store ==> t.store[DeviceKey(b)] == store[DeviceKey(b)])
  {
    KeysSeparate(a, b);
  }

  /** The gate end to end: a session whose first peer certificate carries a
      textual common name is served as that name exactly when the name lacks
      the sentinel prefix, and is otherwise closed without a response or a
      store change. */
  lemma GateServesCommonName(cert: X509.Certificate, others: seq<PeerCertificate>, cn: string,
                             turns: seq<Turn>, store: Store, decode: string -> Option<Request>)
    requires X509.FirstCommonName(cert.subject) == Some(X509.Text(cn))
    requires Admitted(cn) ==> Server.Healthy(store, cn)
    ensures var t := Connect(Some([Parsed(cert)] + others), turns, store, decode);
            && (Admitted(cn) ==> t == Serve(cn, turns, store, decode))
            && (!Admitted(cn) ==> t == Transcript([], store))
  {
  }

  /** A live turn is answered against the store the session has so far, and
      the rest of the session runs on the store that answer left: each line
      sees the writes of the lines before it. */
  lemma ServeStep(id: string, turns: seq<Turn>, store: Store, decode: string -> Option<Request>)
    requires Server.Healthy(store, id)
    requires |turns| > 0 && Live(turns[0])
    ensures var reply := Answer(id, turns[0], store, decode);
            var rest := Serve(id, turns[1..], reply.store, decode);
            Serve(id, turns, store, decode) == Transcript([reply.response] + rest.responses, rest.store)
  {
  }

  /** A turn that reads `line` at `now`, with both store calls succeeding
      and the response delivered. */
  function CommandTurn(line: string, now: nat): (turn: Turn)
  {
    Turn(Received(line), now, ReadWrite(Ok, Ok), true)
  }

  /** Two REGISTER lines on one connection of a new device: the second sees
      the record the first wrote, so it is answered as already registered and
      the record keeps the first line's time. */
  lemma SessionRegisterTwice(id: string, first: string, second: string, t1: nat, t2: nat, store: Store, decode: string -> Option<Request>)
    requires DeviceKey(id) !in store
    requires |first| > 0 && decode(Trim(first)) == Some(Request("REGISTER"))
    requires |second| > 0 && decode(Trim(second)) == Some(Request("REGISTER"))
    ensures var t := Serve(id, [CommandTurn(first, t1), CommandTurn(second, t2)], store, decode);
            && t.responses == [Success(Server.REGISTRATION_COMPLETED), Success(Server.ALREADY_REGISTERED)]
            && DeviceKey(id) in t.store
            && DecodeInfo(t.store[DeviceKey(id)]) == Some(DeviceInfo(id, "registered", t1, t1))
  {
    var turns := [CommandTurn(first, t1), CommandTurn(second, t2)];
    ServeStep(id, turns, store, decode);
    AnswerRoutes(id, turns[0], store, decode);
    var registered := Answer(id, turns[0], store, decode);
    assert turns[1..] == [CommandTurn(second, t2)];
    ServeStep(id, turns[1..], registered.store, decode);
    AnswerRoutes(id, turns[1], registered.store, decode);
  }

  /** REGISTER then HEARTBEAT on one connection of a new device: the
      heartbeat finds the record the registration wrote and marks it active. */
  lemma SessionRegisterThenHeartbeat(id: string, first: string, second: string, t1: nat, t2: nat, store: Store, decode: string -> Option<Request>)
    requires DeviceKey(id) !in store
    requires |first| > 0 && decode(Trim(first)) == Some(Request("REGISTER"))
    requires |second| > 0 && decode(Trim(second)) == Some(Request("HEARTBEAT"))
    ensures var t := Serve(id, [CommandTurn(first, t1), CommandTurn(second, t2)], store, decode);
            && t.responses == [Success(Server.REGISTRATION_COMPLETED), Success(Server.HEARTBEAT_RECEIVED)]
            && DeviceKey(id) in t.store
            && DecodeInfo(t.store[DeviceKey(id)]) == Some(DeviceInfo(id, "active", t1, t2))
  {
    var turns := [CommandTurn(first, t1), CommandTurn(second, t2)];
    ServeStep(id, turns, store, decode);
    AnswerRoutes(id, turns[0], store, decode);
    var registered := Answer(id, turns[0], store, decode);
    assert turns[1..] == [CommandTurn(second, t2)];
    ServeStep(id, turns[1..], registered.store, decode);
    AnswerRoutes(id, turns[1], registered.store, decode);
  }
}

=== FILE: text.dfy ===
/** String helpers with the semantics of the Rust standard library calls
    the source makes: `str::trim`, `str::starts_with` and the decimal
    `Display` of an unsigned integer. */
module Text {

  /** Rust's `char::is_whitespace`: the Unicode White_Space property. */
  predicate IsWhitespace(c: char)
  {
    || c == ' '
    || ('\t' <= c <= '\r')
    || c == '\U{85}' || c == '\U{A0}' || c == '\U{1680}'
    || ('\U{2000}' <= c <= '\U{200A}')
    || c == '\U{2028}' || c == '\U{2029}' || c == '\U{202F}' || c == '\U{205F}'
    || c == '\U{3000}'
  }

  /** `str::trim_start`: the longest suffix that does not begin with whitespace. */
  function TrimStart(s: string): (r: string)
    ensures |r| <= |s| && r == s[|s| - |r|..]
    ensures |r| > 0 ==> !IsWhitespace(r[0])
    ensures forall i :: 0 <= i < |s| - |r| ==> IsWhitespace(s[i])
  {
    if |s| > 0 && IsWhitespace(s[0]) then TrimStart(s[1..]) else s
  }

  /** `str::trim_end`: the longest prefix that does not end with whitespace. */
  function TrimEnd(s: string): (r: string)
    ensures |r| <= |s| && r == s[..|r|]
    ensures |r| > 0 ==> !IsWhitespace(r[|r| - 1])
    ensures forall i :: |r| <= i < |s| ==> IsWhitespace(s[i])
  {
    if |s| > 0 && IsWhitespace(s[|s| - 1]) then TrimEnd(s[..|s| - 1]) else s
  }

  /** `str::trim`: strip whitespace from both ends. */
  function Trim(s: string): (r: string)
    ensures |r| <= |s|
    ensures |r| > 0 ==> !IsWhitespace(r[0]) && !IsWhitespace(r[|r| - 1])
    ensures r == s <==> |s| == 0 || (!IsWhitespace(s[0]) && !IsWhitespace(s[|s| - 1]))
  {
    TrimEnd(TrimStart(s))
  }

  /** The trimmed text is a slice of the input that neither starts nor ends
      with whitespace, and everything cut away is whitespace. */
  lemma TrimCharacterised(s: string)
    ensures exists a, b ::
              && 0 <= a <= b <= |s| && Trim(s) == s[a..b]
              && (forall i :: 0 <= i < a ==> IsWhitespace(s[i]))
              && (forall i :: b <= i < |s| ==> IsWhitespace(s[i]))
    ensures |Trim(s)| > 0 ==> !IsWhitespace(Trim(s)[0]) && !IsWhitespace(Trim(s)[|Trim(s)| - 1])
  {
    var t := TrimStart(s);
    var a := |s| - |t|;
    var b := a + |Trim(s)|;
    assert Trim(s) == t[..|Trim(s)|];
    assert Trim(s) == s[a..b];
    forall i | b <= i < |s|
      ensures IsWhitespace(s[i])
    {
      assert s[i] == t[i - a];
    }
  }

  /** Trailing whitespace, such as the line terminator `read_line` keeps,
      does not reach the trimmed text. */
  lemma {:induction false} TrimIgnoresTrailing(s: string, w: string)
    requires forall i :: 0 <= i < |w| ==> IsWhitespace(w[i])
    ensures Trim(s + w) == Trim(s)
  {
    TrimStartSuffix(s, w);
    if |TrimStart(s)| > 0 {
      TrimEndWhitespace(TrimStart(s), w);
    }
  }

  lemma {:induction false} TrimEndWhitespace(t: string, w: string)
    requires forall i :: 0 <= i < |w| ==> IsWhitespace(w[i])
    ensures TrimEnd(t + w) == TrimEnd(t)
    decreases |w|
  {
    if |w| == 0 {
      assert t + w == t;
    } else {
      var w' := w[..|w| - 1];
      assert (t + w)[..|t + w| - 1] == t + w';
      TrimEndWhitespace(t, w');
    }
  }

  /** Trimming the start of `s + w`, where `w` is all whitespace, is the
      trimmed start of `s` followed by `w`, unless `s` is all whitespace. */
  lemma {:induction false} TrimStartSuffix(s: string, w: string)
    requires forall i :: 0 <= i < |w| ==> IsWhitespace(w[i])
    ensures |TrimStart(s)| > 0 ==> TrimStart(s + w) == TrimStart(s) + w
    ensures |TrimStart(s)| == 0 ==> TrimStart(s + w) == ""
    decreases |s|
  {
    if |s| == 0 {
      assert s + w == w;
      AllWhitespace(w);
    } else if IsWhitespace(s[0]) {
      assert (s + w)[1..] == s[1..] + w;
      TrimStartSuffix(s[1..], w);
    }
  }

  lemma {:induction false} AllWhitespace(w: string)
    requires forall i :: 0 <= i < |w| ==> IsWhitespace(w[i])
    ensures TrimStart(w) == ""
    decreases |w|
  {
    if |w| > 0 {
      AllWhitespace(w[1..]);
    }
  }

  /** `str::starts_with` for a string pattern. */
  predicate StartsWith(s: string, prefix: string)
  {
    |prefix| <= |s| && s[..|prefix|] == prefix
  }

  predicate IsDigit(c: char)
  {
    '0' <= c <= '9'
  }

  function Digit(d: nat): (c: char)
    requires d < 10
    ensures IsDigit(c)
  {
    ('0' as int + d) as char
  }

  function DigitValue(c: char): (d: nat)
    requires IsDigit(c)
    ensures d < 10 && Digit(d) == c
    ensures forall e :: 0 <= e < 10 && Digit(e) == c ==> e == d
  {
    (c as int - '0' as int) as nat
  }

  /** Decimal `Display` of a natural number: digits only, no sign, no
      leading zero. */
  function Decimal(n: nat): (r: string)
    ensures |r| >= 1
    ensures forall i :: 0 <= i < |r| ==> IsDigit(r[i])
    ensures |r| > 1 ==> r[0] != '0'
    decreases n
  {
    if n < 10 then [Digit(n)] else Decimal(n / 10) + [Digit(n % 10)]
  }

  /** Value of a string of decimal digits; the inverse of `Decimal`. */
  function ParseDecimal(s: string): nat
    requires forall i :: 0 <= i < |s| ==> IsDigit(s[i])
  {
    if |s| == 0 then 0 else ParseDecimal(s[..|s| - 1]) * 10 + DigitValue(s[|s| - 1])
  }

  lemma {:induction false} DecimalRoundTrip(n: nat)
    ensures ParseDecimal(Decimal(n)) == n
    decreases n
  {
    var r := Decimal(n);
    if n >= 10 {
      DecimalRoundTrip(n / 10);
      assert r[..|r| - 1] == Decimal(n / 10);
    }
  }
}

=== FILE: x509.dfy ===
/** Abstract X.509 objects. Parsing PEM/DER and checking signatures belong to
    foreign libraries (OpenSSL, x509-parser); the model keeps only the fields
    the decision logic reads. A distinguished name is the sequence of its
    (attribute type, value) pairs in encoding order. */
module X509 {
  import opened Optional
  import opened Bytes

  datatype AttributeType = CommonName | OtherAttribute(oid: seq<nat>)

  /** An attribute value either converts to UTF-8 text or it does not
      (a non-string ASN.1 type or an invalid encoding). */
  datatype AttributeValue = Text(text: string) | Undecodable

  datatype Attribute = Attribute(attrType: AttributeType, value: AttributeValue)

  type Name = seq<Attribute>

  /** A SubjectPublicKeyInfo, kept as opaque DER. */
  datatype PublicKey = PublicKey(spki: seq<byte>)

  datatype Csr = Csr(subject: Name, publicKey: PublicKey)

  /** The TBSCertificate fields of section 4.1 of RFC 5280 that the CA sets;
      times are seconds since the Unix epoch. */
  datatype Certificate = Certificate(
    version: nat,
    serial: nat,
    issuer: Name,
    notBefore: nat,
    notAfter: nat,
    subject: Name,
    publicKey: PublicKey)

  /** Position of the first common-name attribute, or |name| when none. */
  function CommonNameIndex(name: Name): (i: nat)
    ensures i <= |name|
    ensures i < |name| ==> name[i].attrType == CommonName
    ensures forall j :: 0 <= j < i ==> name[j].attrType != CommonName
  {
    if |name| == 0 then 0
    else if name[0].attrType == CommonName then 0
    else 1 + CommonNameIndex(name[1..])
  }

  /** The value of the first common-name attribute, as both `entries_by_nid(COMMONNAME).next()`
      and `iter_common_name().next()` select it. */
  function FirstCommonName(name: Name): (r: Option<AttributeValue>)
    ensures r.None? <==> forall j :: 0 <= j < |name| ==> name[j].attrType != CommonName
    ensures r.Some? ==> exists j :: 0 <= j < |name| && name[j] == Attribute(CommonName, r.value)
                                   && forall i :: 0 <= i < j ==> name[i].attrType != CommonName
  {
    var i := CommonNameIndex(name);
    if i < |name| then Some(name[i].value) else None
  }

  /** A name holding one common name, as the device's CSR builder makes it. */
  lemma SingleCommonName(cn: string)
    ensures FirstCommonName([Attribute(CommonName, Text(cn))]) == Some(Text(cn))
  {
  }
}
